=== FILE: README.md ===
# Music bot queue and playback core, in Dafny

A model of the queue and playback engine of a Discord music bot, and of the two story pagers
of its Halloween cogs. The model is written as immutable datatypes and pure functions, plus
a few loops as methods. Everything that talks to the outside world is an input. This covers
the chat gateway, the voice client, the video extractor, the video API and the random
generator.

The modules follow the program:

- `Songs` (song.dfy): the song record the queue carries (`SongInfoDTO`).
- `Queries` (queries.dfy): cleaning the query `play` receives, and recognising and splitting
  playlist urls.
- `Durations` (durations.dfy): reading the designator form of ISO 8601 durations the video
  API returns, and printing seconds as `h:mm:ss`.
- `Formats` (formats.dfy): choosing the audio stream among the formats the extractor lists.
- `Extractor` (extractor.dfy): building a song from one extraction, with its two retries.
- `SongCache` (cache.dfy): the song-metadata table keyed by video id, and the per-id step of
  playlist expansion.
- `Session` (session.dfy): the cog's queue state and the commands that only touch it:
  `move`, `shuffle`, `pause`, `resume`, `disconnect`, `skip`.
- `Playback` (playback.dfy): joining a voice channel, advancing to the next song, and the
  `play` and `play_next` commands.
- `Paging` (paging.dfy): the four navigation reactions and the `current/total` footer.
- `QueueView` (queueview.dfy): the `queue` command, which cuts the listing into embed fields
  and adds a summary of the whole list.
- `Stories` (stories.dfy): the fixed-slice story pager and the word-boundary story pager.
- `LegacyMusic` (legacy.dfy): the older, simpler music cog, as its own state machine.
- `Wrappers` (wrappers.dfy) and `Text` (text.dfy) are shared helpers: `Option`, digits,
  searching and splitting strings, and concatenation.

Some behaviours of the code are easy to miss. The model keeps each of them:

- Songs added while a shuffled order is pending go to the base queue. The next advance then
  replaces the base queue with the shuffled order, so those songs are lost.
  `Playback.AppendAfterShuffleIsLost` states this.
- The two-position `move` guard accepts when EITHER position is at least 1. A position below
  1 then reaches `pop` as a negative index, so `move 0 t` moves the last entry
  (`Session.MoveZeroMovesLast`).
- A `move` position out of range raises inside the command. A word that is not a number
  raises too. Either way the command ends with the queue unchanged, and the model returns a
  refusal.
- `disconnect` keeps the paused flag and the pending shuffled order.
- An entry whose resolution fails is still shown as the current song before the advance
  moves on (`Playback.AdvanceSkipsToFirstPlayable`).
- The queue pager seals a page when the page plus the next row REACHES 1024 characters, not
  when it exceeds it.
- A playlist id missing from the table is read from the video API and saved. It is not fully
  resolved: its entry still has no stream source and is resolved when it reaches the head of
  the queue.

## Model

| member | source | states |
|---|---|---|
| Songs.NewSong | discord_bot/music_bot/dto.py:13-19 | Only author and url are required. A song built from them alone has an empty title and zero duration, so it is unresolved. Its source is empty, so it needs resolution. Thumbnail and format id are absent. |
| Queries.Sanitize | discord_bot/music_bot/music_service.py:366-368 | The cleaned query is a prefix of the query. For a url containing "&t=" it stops exactly at the first occurrence and no longer contains it. Otherwise the query is returned as it is. |
| Queries.SanitizeIdempotent | discord_bot/music_bot/music_service.py:366-368 | Cleaning twice is cleaning once. |
| Queries.PlaylistId | discord_bot/music_bot/music_service.py:131 | A playlist id exists exactly when the url contains "list=". It is the text between the FIRST occurrence of "list=" and the next one, as `split("list=")[1]` takes it. |
| Queries.IsPlaylist | discord_bot/music_bot/music_service.py:370-378 | A query is a playlist exactly when it is a url and "list" occurs somewhere in it. |
| Durations.FormatYoutubeDuration | discord_bot/music_bot/music_service.py:98-119 | Its meaning is carried by `Durations.IsoDurationRoundTrip` and `Durations.DaysAreIgnored`: 3600·H + 60·M + S from the leftmost `(\d+)H`, `(\d+)M` and `(\d+)S` matches, a missing one counting as zero. |
| Durations.IsoDurationRoundTrip | discord_bot/music_bot/music_service.py:107-119 | Reading a rendered `PT[nH][nM][nS]` duration gives 3600·H + 60·M + S, a missing component counting as zero. |
| Durations.DaysAreIgnored | discord_bot/music_bot/music_service.py:107-119 | A day component is ignored: `P<d>DT<h>H` reads as h hours whatever d is. |
| Durations.ConvertSeconds | discord_bot/music_bot/music_service.py:339-344 | The text has the `h:mm:ss` shape. Its value is the input mod 86400, with hours below 24 and minutes and seconds below 60. |
| Formats.HasAudioFormats | discord_bot/music_bot/youtube_extractor.py:38-42 | True exactly when some format has a non-empty url and an audio codec that is present and not "none". |
| Formats.Keep | discord_bot/music_bot/youtube_extractor.py:54-69 | The list comprehensions that build the audio formats and the opus candidates. The result holds exactly as many formats as satisfy the test, and the format at position j of the list lands at the number of matching formats before j. So the order and the repeats of the list are kept, which the earliest-maximum tie-break relies on. |
| Formats.ArgMax | discord_bot/music_bot/youtube_extractor.py:72-78 | Python's `max` with a key picks a format whose score is at least every candidate's, and the earliest such. |
| Formats.FirstWithUrl | discord_bot/music_bot/youtube_extractor.py:62-65 | The first format with a url, or nothing exactly when no format has one. |
| Formats.BestAudioFormat | discord_bot/music_bot/youtube_extractor.py:54-79 | The chosen format is a member of the list and has a url. Nothing is chosen exactly when no format has a url. |
| Formats.CandidatesAreAudio | discord_bot/music_bot/youtube_extractor.py:67-70 | With audio present the candidates are non-empty audio formats of the list. They are all opus when any audio format is. |
| Formats.SelectBestAudioSource | discord_bot/music_bot/youtube_extractor.py:44-79 | The url and format id returned come from one and the same format, which has a url. No url is returned exactly when no format has one. |
| Formats.SelectWithoutAudio | discord_bot/music_bot/youtube_extractor.py:60-65 | Without audio formats the first format with a url is returned with its format id, else (None, None). |
| Formats.SelectWithAudio | discord_bot/music_bot/youtube_extractor.py:67-79 | With audio formats the selection is an audio format, opus whenever an opus audio format exists. Among the candidates it has the highest score, and is the earliest such. |
| Formats.FirstAudio | discord_bot/music_bot/music_service.py:78-80 | The first audio format, or nothing exactly when there is no audio format. |
| Formats.FindBestSongFormat | discord_bot/music_bot/music_service.py:78-84 | The older helper returns the url of the first audio format, else the first url, else nothing. It returns nothing exactly when no format has a url. |
| Formats.FindBestMatchesFallback | discord_bot/music_bot/music_service.py:78-84 | Without audio formats the older helper and the newer selector return the same url. With audio formats the older one takes the first audio format. |
| Extractor.Search | discord_bot/music_bot/youtube_extractor.py:93-148 | No song exactly when both extraction attempts fail. The retry without audio formats replaces the info only when it succeeds. The song carries the info's url, title, duration and thumbnail. Its source is empty exactly when no format has a url; otherwise the source and format id come from one format. |
| SongCache.GetSongId | discord_bot/music_bot/music_service.py:28-30 | The key contains neither "/" nor "=". |
| SongCache.GetSongIdIdempotent | discord_bot/music_bot/music_service.py:28-30 | Deriving the key of a key changes nothing. |
| SongCache.GetSongIdOfVideoLinks | discord_bot/music_bot/music_service.py:28-30 | The short link and the watch link of a video both give its id. |
| SongCache.SaveSong | discord_bot/music_bot/music_service.py:42-45 | Saving adds or overwrites exactly the row of the url's key; every other row is kept. |
| SongCache.RetrieveSong | discord_bot/music_bot/music_service.py:56-67 | Nothing exactly when the key is unknown. Otherwise the result is an unresolved song with no requester, the asked url, and the stored title and duration; an empty thumbnail reads as absent. |
| SongCache.SaveThenRetrieve | discord_bot/music_bot/music_service.py:42-67 | After saving url u, any url with the same key reads back the saved row under its own url. Every other key reads back as before. |
| SongCache.PlaylistStep | discord_bot/music_bot/music_service.py:163-216 | The API is asked exactly when the id is not stored. A stored id yields a song built from its row and leaves the table alone. A failed or empty fetch yields nothing and leaves the table alone. On a fetch that lists items, the table is the old one with exactly the id's row set to the first item's title, parsed duration and thumbnail, and the song carries those same values. A yielded song has the requester's nick and the short link, and needs resolution. |
| SongCache.HitIgnoresApi | discord_bot/music_bot/music_service.py:165-178 | For a stored id the step does not depend on what the video API would answer. |
| SongCache.ExpandPlaylist | discord_bot/music_bot/music_service.py:163-216 | At most one song and one fetch per id. The table only grows. Every song has the requester's nick and needs resolution. |
| SongCache.ExpandPlaylistAppend | discord_bot/music_bot/music_service.py:163-216 | Expanding a + b is expanding a, then b from the table a left behind. The songs come out in id order. |
| SongCache.ExpandCachedPlaylist | discord_bot/music_bot/music_service.py:163-178 | A playlist whose ids are all stored needs no fetch and leaves the table alone. It yields one song per id, in order, with the stored title and duration. |
| Session.Initial | discord_bot/music_bot/music_cog.py:29-63 | A fresh cog has nothing queued, shuffled or showing, no flags set and no voice client. |
| Session.PopIndex | discord_bot/music_bot/music_cog.py:527 | `pop(i)` accepts exactly -n ≤ i < n, counting a negative index from the end. |
| Session.InsertIndex | discord_bot/music_bot/music_cog.py:528 | `insert(j, x)` places x at j when 0 ≤ j ≤ n and clamps at the end. |
| Session.InsertAt | discord_bot/music_bot/music_cog.py:528 | The inserted element is at the insertion position; removing it gives back the list. |
| Session.Relocate | discord_bot/music_bot/music_cog.py:527-528 | Pop then insert moves one entry. The entry lands at the clamped position and the others keep their relative order. |
| Session.RelocationPermutes | discord_bot/music_bot/music_cog.py:527-528 | Moving one entry keeps the same multiset of entries. |
| Session.ParsePositions | discord_bot/music_bot/music_cog.py:517-518 | No words, more than two, or an empty first word is the wrong number of parameters. Otherwise the words are read as numbers or refused. |
| Session.ParseNumbers | discord_bot/music_bot/music_cog.py:523-535 | Numbers become positions one below them. |
| Session.Move | discord_bot/music_bot/music_cog.py:516-547 | An accepted move is a relocation of the queue. An empty queue is refused, and so is a wrong number of parameters. |
| Session.MoveTo | discord_bot/music_bot/music_cog.py:520-533 | The two-position form either relocates or is refused as not positive or out of range. |
| Session.MoveFront | discord_bot/music_bot/music_cog.py:534-541 | The one-position form either relocates or is refused as not positive or out of range. |
| Session.MoveTwo | discord_bot/music_bot/music_cog.py:520-531 | `move p q` with p in range and q ≥ 1 puts entry p at min(q, n) - 1. The others keep their relative order, and the entries are a permutation. |
| Session.MoveOne | discord_bot/music_bot/music_cog.py:534-541 | `move p` with p in range brings entry p to the front, the rest in order. |
| Session.MoveRefusals | discord_bot/music_bot/music_cog.py:516-547 | Both positions below 1, a single position below 1, or a first position past the end leaves the queue unchanged. |
| Session.MoveZeroMovesLast | discord_bot/music_bot/music_cog.py:526-528 | Because the guard uses `or`, `move 0 t` moves the last entry to position t. |
| Session.MoveInPlace | discord_bot/music_bot/music_cog.py:520-531 | `move 1 1` leaves the order as it is. |
| Session.MoveCommand | discord_bot/music_bot/music_cog.py:515-547 | `move` changes only the base queue, and keeps its multiset of entries. |
| Session.Swap | discord_bot/music_bot/music_cog.py:426-427 | A swap keeps the length and the multiset of entries. |
| Session.FisherYates | discord_bot/music_bot/music_cog.py:426-427 | The shuffle pass is a permutation, whatever the random picks. |
| Session.Shuffle | discord_bot/music_bot/music_cog.py:424-432 | On a non-empty queue the shuffled order is a permutation of the queue and the flag is set. The base queue and all other fields stay as they were. An empty queue changes nothing. The queue display then shows the shuffled order. |
| Session.Pause | discord_bot/music_bot/music_cog.py:482-486 | Only while playing with a voice client: the session becomes paused and not playing. Otherwise nothing changes, and no other field ever does. |
| Session.Resume | discord_bot/music_bot/music_cog.py:497-501 | Only while paused with a voice client: the session becomes playing and not paused. Otherwise nothing changes, and no other field ever does. |
| Session.PauseResumeFlags | discord_bot/music_bot/music_cog.py:482-501 | Neither command makes both flags true, and resume undoes pause and the reverse. |
| Session.Disconnect | discord_bot/music_bot/music_cog.py:577-585 | With a connected client: the client, the queue, the current song and the playing flag are cleared. The paused flag and the shuffled order are kept. Otherwise nothing changes. |
| Session.DisconnectWhilePaused | discord_bot/music_bot/music_cog.py:577-585 | Disconnecting while paused leaves the session paused without a client, which `resume` cannot leave. |
| Session.Skip | discord_bot/music_bot/music_cog.py:404-408 | A stop is requested exactly when there is a voice client and it is streaming; no session field changes. |
| Playback.ConnectDecision | discord_bot/music_bot/music_service.py:220-273 | With a target: join when there is no client; switch when a connected client is on a channel of another name; otherwise stay. In auto mode without a client: join the head entry's channel, or stay on an empty queue. In auto mode with a client: stay. |
| Playback.TryToConnect | discord_bot/music_bot/music_service.py:220-273 | Only the voice client changes. A successful join or switch leaves a connected client on the target. A failed join leaves none, in auto mode too. A failed switch leaves the old client behind, disconnected. A stay decision (a client already on the target, or one no longer connected) changes nothing. |
| Playback.TryToConnectIdempotent | discord_bot/music_bot/music_service.py:220-273 | Connecting twice to the same target is connecting once. |
| Playback.Adopt | discord_bot/music_bot/music_service.py:283-285 | A pending shuffled order replaces the base queue and the flag is cleared. Nothing else changes. |
| Playback.Lookup | discord_bot/music_bot/music_service.py:287-296 | An entry with a source streams it unresolved. Otherwise the source is the resolved song's, or empty when resolution failed. |
| Playback.ReplaceLast | discord_bot/music_bot/music_service.py:298-305 | Pop then append keeps the length (one when empty) and ends with the new song. |
| Playback.TakeHead | discord_bot/music_bot/music_service.py:298-305 | Exactly the head leaves the queue, the current song becomes the head's, and the playing flag is set. Nothing else changes. |
| Playback.Advance | discord_bot/music_bot/music_service.py:275-329 | Playing exactly when a stream was started, and only one that actually streams. An empty queue just stops. The voice client, table and paused flag are kept, and so is the shuffled copy, which is never read again. After an advance of a non-empty queue no shuffle is pending, and a current song is shown once an entry came off. |
| Playback.AdvanceShrinks | discord_bot/music_bot/music_service.py:275-329 | An advance takes at least one entry off the head of the adopted queue and leaves the rest in order, which is why it terminates. |
| Playback.AdvanceShowsOne | discord_bot/music_bot/music_service.py:298-305 | When at most one song was showing, exactly one is showing after an advance that took an entry off. |
| Playback.AdvanceSkipsToFirstPlayable | discord_bot/music_bot/music_service.py:287-323 | From an unshuffled queue: the entries before the first playable one are dropped, that one streams, and the rest stays queued. With none playable the queue is used up, playback stops, and the last entry is shown as current. |
| Playback.AppendAfterShuffleIsLost | discord_bot/music_bot/music_service.py:283-285 | A song appended while a shuffle is pending does not change the next advance. |
| Playback.AdvanceScenario | discord_bot/music_bot/music_service.py:275-329 | With two streamable songs A and B: A plays with B queued, then B plays with the queue empty, then playback stops with B still shown. |
| Playback.Pin | discord_bot/music_bot/music_cog.py:164-165 | Each song becomes one entry pinned to the requester's channel, in order. |
| Playback.StartIfIdle | discord_bot/music_bot/music_cog.py:195-200 | While playing or paused nothing is started. The table and paused flag are kept. |
| Playback.StartIfIdleSingleStream | discord_bot/music_bot/music_cog.py:195-200 | Once a command has started a stream, a second start does nothing. |
| Playback.EnqueuePlaylist | discord_bot/music_bot/music_cog.py:164-172 | While busy, the playlist is appended in order, pinned to the requester's channel. The table and paused flag are kept. |
| Playback.Play | discord_bot/music_bot/music_cog.py:144-200 | A url that says "list" without "list=" changes nothing. While busy, a playlist appends its expansion in order and a resolved song is saved and appended; a failed resolution changes nothing. Each entry is pinned to the requester's channel. |
| Playback.PlayFromIdle | discord_bot/music_bot/music_cog.py:178-200 | On an idle empty session a streamable song joins the requester's channel and becomes the current song, leaving the queue empty. |
| Playback.PlayWhenIdle | discord_bot/music_bot/music_cog.py:144-200 | On an idle session with no shuffle pending, for every request, unless the playlist url is refused: what stays queued is a tail of the old queue plus the requested entries, with at least one taken off. The session then either streams on a client in the requester's channel or has used its queue up. |
| Playback.PlayNext | discord_bot/music_bot/music_cog.py:600-638 | With songs queued: a playlist is refused and a failed resolution changes nothing. A resolved song is saved and inserted at the head, and nothing else changes. With an empty queue the command is `play`. |
| Paging.Press | discord_bot/music_bot/music_cog.py:350-363 | The page stays in [0, n-1]: first goes to 0, previous to max(cur-1, 0), next to min(cur+1, n-1), last to n-1. |
| Paging.PressAllFirst | discord_bot/music_bot/music_cog.py:350-391 | Pressing one button and then the rest reaches the same page as pressing them all in order. |
| Paging.Navigate | discord_bot/music_bot/music_cog.py:350-391 | The final page is the fold of the presses (`PressAll`). A first press that changes the page renders that page. A re-render happens only for a press that changed the page, so consecutive renders differ. The pages stay in range and the last render is the final page. |
| Paging.Shown | discord_bot/music_bot/music_cog.py:321-391 | The pages shown start at the first one, stay in range and never repeat the previous one. The second one shown is the page after the first press when that press changed the page. They end on the page the presses reach. |
| Paging.NextRepeated | discord_bot/music_bot/music_cog.py:358-360 | k presses of next from page cur reach min(cur + k, n - 1). |
| Paging.PressInverses | discord_bot/music_bot/music_cog.py:350-363 | Away from the ends, previous undoes next and next undoes previous. Skipping to an end twice is skipping once. |
| Paging.FooterRoundTrip | discord_bot/music_bot/music_cog.py:387-390 | A footer reads back as the page it was made for. |
| Paging.FooterDistinct | discord_bot/music_bot/music_cog.py:387-390 | Different pages of one display have different footers. |
| QueueView.Rows | discord_bot/music_bot/music_cog.py:269-275 | One row per entry of the list, numbered from 1 in list order. |
| QueueView.LongRowNeverPlaced | discord_bot/music_bot/music_cog.py:269-287 | A row that alone reaches 1024 characters is never placed. The loop stands still on it, sealing an empty page every round, so it never ends. |
| QueueView.FillKeeps | discord_bot/music_bot/music_cog.py:269-282 | One round of the page-filling loop keeps both of its invariants, and it either places a row or shortens the open page. |
| QueueView.CutPages | discord_bot/music_bot/music_cog.py:231-287 | When every row fits in a field, every page is non-empty and under 1024 characters, and the pages put together are the rows in order. The cut is greedy at row boundaries (`Greedy`): each page is a run of whole rows, and a page is sealed only when the next row would take it to 1024. There is a page exactly when there is a row, and a single page exactly when the whole listing fits in one field. |
| QueueView.SumDurations | discord_bot/music_bot/music_cog.py:276 | The running total is the summed duration of the whole list. |
| QueueView.BuildPages | discord_bot/music_bot/music_cog.py:231-287 | The page-building loop cuts the rows numbered 1..n greedily at row boundaries, and totals the duration of the whole list. |
| QueueView.ShowQueue | discord_bot/music_bot/music_cog.py:211-330 | Nothing is shown exactly when the base queue is empty. Otherwise the list shown is the pending shuffled order if there is one, split into pages under the field limit. The summary counts the whole list and its total duration, and several pages imply several entries. |
| QueueView.Screens | discord_bot/music_bot/music_cog.py:321-391 | The first screen is the first page. Every screen shows some page with the whole-list summary and that page's own number. The last screen shows the page that the presses lead to. When the first press changes the page, the second screen shows the page that press leads to. There is at most one screen per press, plus the first. |
| QueueView.ScreensChange | discord_bot/music_bot/music_cog.py:368-391 | Consecutive screens show different page numbers. |
| Stories.SlicesConcat | halloween/halloween_cog.py:105 | The slices put together give the story back exactly. |
| Stories.SlicesShape | halloween/halloween_cog.py:104-105 | There are ceil(len/1024) slices. Each has at most 1024 characters, and all but the last exactly 1024. |
| Stories.FixedChunks | halloween/halloween_cog.py:104-105 | The fixed slicing of a whole story gives it back when put together; all slices but the last are full. |
| Stories.FixedChunksFirst | halloween/halloween_cog.py:104-105 | An empty body has no slices. A body of at most 1024 characters is one slice. A longer one starts with its first 1024 characters and has more. |
| Stories.PagedScreens | halloween/halloween_cog.py:144-186 | The first screen is page 1. Every screen shows some slice with its own footer number. The last screen shows the page that the presses lead to. When the first press changes the page, the second screen shows the page that press leads to. There is at most one screen per press, plus the first. |
| Stories.ArmFixedStory | halloween/halloween_cog.py:139-186 | An empty body sends nothing. A single slice is sent as "Página 1/1" without buttons. Buttons are offered exactly when there is more than one slice, and every screen shows a slice with its own number. With buttons, the last screen shows the slice that the presses lead to. When the first press changes the page, the second screen shows the slice that press leads to. |
| Stories.ScanWrapsAndFails | discord_bot/halloween_bot/halloween_cog.py:124-133 | On a page without a space the backward scan runs through the negative indices and fails. |
| Stories.ScanBackIsLastSpace | discord_bot/halloween_bot/halloween_cog.py:124-137 | The backward scan stops on the page's last space, counting the characters after it, and fails exactly when the page has no space. |
| Stories.CutKeeps | discord_bot/halloween_bot/halloween_cog.py:124-139 | A cut sends the page up to and including its last space. The count of characters taken rewinds by exactly the characters dropped, so the pages still put together the body taken so far. |
| Stories.StuckWindow | discord_bot/halloween_bot/halloween_cog.py:124-133 | The pager only gets stuck on a full 1023-character window of the body that has no space and that some character of the body still follows. |
| Stories.WordChunks | discord_bot/halloween_bot/halloween_cog.py:109-139 | The pages are under 1024 characters and put together give the body. Every page but the last ends in a space. Every page but the last is filled greedily: the full 1023-character window that starts with it lies inside the body, and that window has no space after the page. There are pages exactly when the body is not empty. It fails only on a 1023-character stretch without a space that the body continues past, so a body without such a stretch is always paged. |
| Stories.NumberPages | discord_bot/halloween_bot/halloween_cog.py:142-146 | Every page is sent in order. Its footer is "Página k/n", with k its own number and n the page count, and it reads back as that number. |
| LegacyMusic.Initial | music/music_cog.py:11-39 | A fresh cog has nothing queued or playing and the empty-string voice placeholder. |
| LegacyMusic.PlayNext | music/music_cog.py:141-169 | An empty queue stops. Otherwise exactly the head moves from the queue to the now-playing list, which keeps at most one entry. Playing is set exactly when the stream starts, and a failure leaves it false. |
| LegacyMusic.PlayNextTakesHeads | music/music_cog.py:141-169 | After k steps the queue is what followed the first k entries, and the k-th is the one shown. |
| LegacyMusic.TryToConnect | music/music_cog.py:123-139 | Only the voice field changes, and only when something is queued. With no client it connects to the head's channel, swallowing failures. A failed first connect keeps the placeholder as it was. A connected client on another channel is disconnected and reconnected; a failure then escapes, leaving `None`. A connected client with nothing queued raises without a change. A client already on the head's channel, or one no longer connected, is left alone. |
| LegacyMusic.TryToConnectSettles | music/music_cog.py:123-139 | Once connected to the head's channel, trying again does nothing. |
| LegacyMusic.Added | music/music_cog.py:184-208 | A query mentioning "list" adds the playlist's tracks in order. Anything else adds the one found track, or nothing. Every entry is pinned to the requester's channel. |
| LegacyMusic.Play | music/music_cog.py:175-213 | While playing, the entries are only appended. When idle, there are three outcomes. A connect that raises leaves the new entries queued and nothing playing. Otherwise the extended queue is the now-playing head followed by what remains, whether or not the stream opened, and playing holds exactly when it opened. With nothing queued, nothing plays. Playing implies a connected client, and the now-playing list keeps at most one entry. |
| LegacyMusic.PlayFromFresh | music/music_cog.py:175-213 | A found song on a fresh cog plays at once in the requester's channel, leaving the queue empty. |
| LegacyMusic.Lines | music/music_cog.py:228-229 | One line per entry, "i - title", numbered from 0 in queue order. |
| LegacyMusic.Listing | music/music_cog.py:225-238 | Nothing for an empty queue; otherwise the lines put together in order. |
| LegacyMusic.ListingAppend | music/music_cog.py:228-229 | One more entry adds one line, numbered with the old length. |
| LegacyMusic.LineRoundTrip | music/music_cog.py:229 | A line reads back as its position and title. |
| LegacyMusic.Skip | music/music_cog.py:243-253 | Only a streaming client is stopped. Otherwise nothing changes. A stop takes two entries, one by its own `play_next` and one by the stopped stream's callback, or all of them when fewer are queued. |
| LegacyMusic.SkipTakesTwo | music/music_cog.py:158-167 | The skip's own `play_next` and the stopped stream's callback take two entries. The second is shown in now-playing. When the first streams, the second's `play` raises on the busy client: it is never heard and the playing flag ends false. |
| LegacyMusic.SkipCorrected | music/music_cog.py:243-253 | With a streaming client, exactly the head is taken, and playing is set exactly when it streams. An empty queue leaves playing false. Otherwise nothing changes. |
| LegacyMusic.FirstWord | music/music_cog.py:77 | The first word is a prefix of the message without a space. |
| LegacyMusic.CheckSelfBotAsWritten | music/music_cog.py:60-82 | While playing, the author must be in the bot's channel. Once the bot has a voice client that is the whole guard. |
| LegacyMusic.PrefixedPlayRefused | music/music_cog.py:77-81 | Before the first join, the guard as written refuses "/play ..." itself, unless an alias starts with the prefix. |
| LegacyMusic.CommandName | music/music_cog.py:77 | The command name is the first word without the prefix. |
| LegacyMusic.CheckSelfBot | music/music_cog.py:60-82 | The guard with the prefix stripped. It has the same channel condition as the guard as written. |
| LegacyMusic.CheckSelfBotNames | music/music_cog.py:79-81 | Before the first join, a prefixed command passes exactly when it is "play" or a play alias. |
| LegacyMusic.PlayCommand | music/music_cog.py:60-82 | The `play` command as written: a request the guard as written refuses changes nothing. Once the bot has a client, an admitted request is `play`. |
| LegacyMusic.FirstPlayIgnored | music/music_cog.py:60-82 | As written, the first "/play" to a fresh bot is refused and the bot stays as it was, unless a play alias starts with "/". |
| LegacyMusic.PlayCommandCorrected | music/music_cog.py:60-82 | The `play` command behind the corrected guard: a refused request changes nothing, and once the bot has a client an admitted request is `play`. |
| LegacyMusic.FirstPlayStarts | music/music_cog.py:60-82 | With the corrected guard (`PlayCommandCorrected`), the first "/play" to a fresh bot is admitted and starts the song. |

## Left out

- Chat gateway I/O is not modelled: messages, embeds, reactions, waiting for reactions, the
  60 s and 86400 s timeouts and message deletion. Navigation input is a sequence of buttons.
- The voice transport is replaced by oracles: `connectOk` for connecting, `playOk` for
  starting a stream. FFmpeg options, volume and the thread hand-off of the end-of-stream
  callback are not modelled.
- The video extractor is replaced by oracles. This covers yt-dlp (a resolver from url and
  author to a song) and the video API (a fetch per id).
- The playlist paging loop (discord_bot/music_bot/music_service.py:138-161) is not modelled.
  The list of video ids it collects is an input, and its "private" and "empty" messages are
  not modelled.
- `validators.url` is a predicate parameter.
- numpy's random shuffle is a Fisher-Yates pass driven by a pick function. Only the result's
  being a permutation is stated, not its distribution.
- Durations are whole seconds (`nat`), not floats. Bitrate scores are `real`. The fallback
  of `score` to 0.0 when `float()` raises is not modelled, since a score is always a number
  here.
- The metadata fetch inside the queue display loop (discord_bot/music_bot/music_cog.py:234-261)
  is not modelled. The rows are built from the songs as queued.
- The `_check_self_bot` guard of the current cog is not modelled: music_commands.py does not
  define two of the alias lists it imports. Its `_check_if_valid` guard, `help_alias`, `join`
  and `now_playing` are not modelled either. Each command is modelled after its guards.
- The play aliases of the older cog are a parameter, because music/music_commands.py is not
  part of this model.
- Playback.TryToConnect: the auto-mode connect loop of
  discord_bot/music_bot/music_service.py:231-254 is modelled as one attempt. The loop
  retries while the new client reports itself not connected, and the check that the channel
  names differ after joining the head's own channel is never true.
- Playback.Advance: the stream-error callback is not modelled separately. Every completion
  is a new call of the advance. Adopting the shuffled order makes the base queue and the
  shuffled list one list in the cog, so its pops shorten both. The model keeps the old
  shuffled copy, which nothing reads again: the flag is cleared and `shuffle` assigns a new
  list.
- Durations.DigitRun: digits are the ASCII digits. Python's `\d` and `int()` also accept
  other Unicode decimal digits, which the video API does not emit.
- Playback.AdvanceShowsOne: "exactly one song showing" is stated only when at most one was
  showing before, because pop-then-append keeps a longer list at its length.
- QueueView.CutPages: requires every row to be under 1024 characters. With a longer row the
  loop of the source never ends (`QueueView.LongRowNeverPlaced`), so there are no pages to
  describe.
- QueueView.ShowQueue: requires every row of the shown list to be under 1024 characters, for
  the same reason.
- Stories.WordChunks: models a scan that runs off the page as an `Unbreakable` result. The
  source raises `IndexError` there.
- LegacyMusic.Skip: runs its own `play_next` before the stopped stream's callback. The two
  run on different threads in either order, and both orders take the same entries and end
  in the same state.
- The Halloween cogs' date and file gates, story scraping, and the older pager's
  commented-out loop are not modelled.
- Django settings, urls, views and wsgi are not modelled. The `SongLog` table is a finite
  map from id to record.

## Findings

| source | as written | input that shows it | evidently intended | confidence | as-written member | corrected member |
|---|---|---|---|---|---|---|
| music/music_cog.py:77-81 | Before the bot has joined a channel (`vc == ""`), the guard compares the raw first word of the message, prefix included, with "play" and the play aliases. The prefix is "/" (marmoBot.py:6). | The message "/play song" on a fresh cog: its first word is "/play", which is not "play". So the guard refuses the one command that connects the bot, unless an alias itself starts with "/". | Compare the command name without the prefix, so that "play" and its aliases are admitted before the first join. | medium (the alias lists are not available), not executed | LegacyMusic.CheckSelfBotAsWritten, LegacyMusic.PrefixedPlayRefused, LegacyMusic.PlayCommand, LegacyMusic.FirstPlayIgnored | LegacyMusic.CheckSelfBot, LegacyMusic.CheckSelfBotNames, LegacyMusic.PlayCommandCorrected, LegacyMusic.FirstPlayStarts |
| music/music_cog.py:243-253 | `skip` stops the stream and then calls `play_next` itself. The stop also fires the stream's end-of-stream callback (line 162), which is a second `play_next`. | A skip with two songs queued and a streaming client. One `play_next` plays the first song. The other moves the second into now-playing, but its `play` raises on the busy client and the exception is swallowed (lines 166-167). The second song is never heard, and the playing flag is false while the first streams. | Only stop the stream and let the callback play the next song, so that a skip moves on by exactly one entry. | medium (depends on the voice client raising on a busy client and on the callback firing on `stop`), not executed | LegacyMusic.Skip, LegacyMusic.SkipTakesTwo | LegacyMusic.SkipCorrected |

=== FILE: cache.dfy ===
/** The song-metadata store keyed by video id, and the per-video step of playlist expansion. */
module SongCache {
  import opened Wrappers
  import opened Text
  import opened Songs
  import opened Durations

  /** `get_song_id`: the text after the last "/", then after the last "=". */
  function GetSongId(url: string): (id: string)
    ensures '/' !in id && '=' !in id
  {
    var seg := AfterLast(url, '/');
    AfterLastIsTail(seg, '=');
    AfterLast(seg, '=')
  }

  /** An id is its own id: deriving the key twice changes nothing. */
  lemma GetSongIdIdempotent(url: string)
    ensures GetSongId(GetSongId(url)) == GetSongId(url)
  {
    var id := GetSongId(url);
    AfterLastNoSeparator(id, '/');
    AfterLastNoSeparator(id, '=');
  }

  /** The short link and the watch link of one video give the same key, the video's id. */
  lemma GetSongIdOfVideoLinks(id: string)
    requires '/' !in id && '=' !in id
    ensures GetSongId("https://youtu.be/" + id) == id
    ensures GetSongId("https://www.youtube.com/watch?v=" + id) == id
  {
    assert "https://youtu.be/" + id == "https://youtu.be" + ['/'] + id;
    AfterLastOfTail("https://youtu.be", '/', id);
    AfterLastNoSeparator(id, '=');
    var tail := "watch?v=" + id;
    assert "https://www.youtube.com/watch?v=" + id == "https://www.youtube.com" + ['/'] + tail;
    assert '/' !in tail by {
      assert forall i :: 0 <= i < |tail| ==> tail[i] == if i < 8 then "watch?v="[i] else id[i - 8];
    }
    AfterLastOfTail("https://www.youtube.com", '/', tail);
    assert tail == "watch?v" + ['='] + id;
    AfterLastOfTail("watch?v", '=', id);
  }

  /** One row of the store: what `save_song` keeps of a song. */
  datatype SongRecord = SongRecord(title: string, duration: nat, thumbnail: Option<string>)

  /** The store: video id to record; saving an existing id overwrites its row. */
  type Store = map<string, SongRecord>

  /** `save_song`: write the row for the url's id. */
  function SaveSong(store: Store, url: string, title: string, duration: nat, thumbnail: Option<string>): (r: Store)
    ensures r.Keys == store.Keys + {GetSongId(url)}
    ensures forall k :: k in store && k != GetSongId(url) ==> r[k] == store[k]
  {
    store[GetSongId(url) := SongRecord(title, duration, thumbnail)]
  }

  /** `str(t) if t else None`: an empty thumbnail reads back as absent. */
  function PresentThumbnail(t: Option<string>): Option<string> {
    if t.Some? && t.value != "" then t else None
  }

  /** `retrieve_song`: the stored metadata for the url's id as an unresolved song with no
      requester, or nothing when the id is unknown. */
  function RetrieveSong(store: Store, url: string): (r: Option<Song>)
    ensures r.None? <==> GetSongId(url) !in store
    ensures r.Some? ==>
      var rec := store[GetSongId(url)];
      && r.value.author == "" && r.value.url == url && NeedsSource(r.value)
      && r.value.title == rec.title && r.value.duration == rec.duration
      && r.value.thumbnail == PresentThumbnail(rec.thumbnail) && r.value.formatId.None?
  {
    var id := GetSongId(url);
    if id in store then
      var rec := store[id];
      Some(Song("", url, rec.title, rec.duration, "", PresentThumbnail(rec.thumbnail), None))
    else None
  }

  /** After saving url `u`, any url with the same id reads back what was saved, under its own
      url; every other id reads back as before. */
  lemma SaveThenRetrieve(store: Store, u: string, title: string, duration: nat, thumbnail: Option<string>, u': string)
    ensures GetSongId(u') == GetSongId(u) ==>
      RetrieveSong(SaveSong(store, u, title, duration, thumbnail), u') ==
        Some(Song("", u', title, duration, "", PresentThumbnail(thumbnail), None))
    ensures GetSongId(u') != GetSongId(u) ==>
      RetrieveSong(SaveSong(store, u, title, duration, thumbnail), u') == RetrieveSong(store, u')
  {
  }

  /** The short link the playlist expansion builds for a video id. */
  function ShortLink(id: string): string {
    "https://youtu.be/" + id
  }

  /** The first item the video API returns for an id. */
  datatype VideoItem = VideoItem(duration: string, title: string, thumbnail: string)

  /** Outcome of asking the video API about one id: it raised, or it listed these items. */
  datatype Fetch = FetchFailed | Fetched(items: seq<VideoItem>)

  /** Outcome of one id: the song it contributes (if any), the store afterwards, and whether
      the video API was asked. */
  datatype StepResult = StepResult(song: Option<Song>, store: Store, fetched: bool)

  /** The per-id step of `search_youtube_playlist`: a stored id is built from the store without
      asking the API; an unknown one is fetched, saved and built; a failed or empty fetch
      contributes nothing. */
  function PlaylistStep(store: Store, nick: string, id: string, fetch: string -> Fetch): (r: StepResult)
    ensures r.fetched <==> GetSongId(ShortLink(id)) !in store
    ensures !r.fetched ==> r.store == store && r.song.Some?
    ensures store.Keys <= r.store.Keys
    ensures r.song.Some? ==>
      && r.song.value.author == nick && r.song.value.url == ShortLink(id) && NeedsSource(r.song.value)
      && GetSongId(ShortLink(id)) in r.store
      && r.song.value.title == r.store[GetSongId(ShortLink(id))].title
      && r.song.value.duration == r.store[GetSongId(ShortLink(id))].duration
    ensures r.song.None? <==> r.fetched && (fetch(id).FetchFailed? || |fetch(id).items| == 0)
    ensures r.song.None? ==> r.store == store
    ensures !r.fetched ==> r.song.value.thumbnail == PresentThumbnail(store[GetSongId(ShortLink(id))].thumbnail)
    ensures r.fetched && r.song.Some? ==>
      var item := fetch(id).items[0];
      && r.store == store[GetSongId(ShortLink(id)) := SongRecord(item.title, FormatYoutubeDuration(item.duration), Some(item.thumbnail))]
      && r.song.value.title == item.title && r.song.value.duration == FormatYoutubeDuration(item.duration)
      && r.song.value.thumbnail == Some(item.thumbnail)
  {
    var url := ShortLink(id);
    match RetrieveSong(store, url)
    case Some(hit) =>
      StepResult(Some(Song(nick, url, hit.title, hit.duration, "", PresentThumbnail(hit.thumbnail), None)), store, false)
    case None =>
      match fetch(id)
      case FetchFailed => StepResult(None, store, true)
      case Fetched(items) =>
        if |items| == 0 then StepResult(None, store, true)
        else
          var item := items[0];
          var duration := FormatYoutubeDuration(item.duration);
          var store' := SaveSong(store, url, item.title, duration, Some(item.thumbnail));
          StepResult(Some(Song(nick, url, item.title, duration, "", Some(item.thumbnail), None)), store', true)
  }

  /** A stored id never consults the API: the step is the same whatever the API would answer. */
  lemma HitIgnoresApi(store: Store, nick: string, id: string, f1: string -> Fetch, f2: string -> Fetch)
    requires GetSongId(ShortLink(id)) in store
    ensures PlaylistStep(store, nick, id, f1) == PlaylistStep(store, nick, id, f2)
  {
  }

  /** Songs built for a playlist, the store afterwards and how many ids were fetched. */
  datatype Expansion = Expansion(songs: seq<Song>, store: Store, fetches: nat)

  /** The per-id loop of `search_youtube_playlist` over the listed ids, in order. */
  function ExpandPlaylist(store: Store, nick: string, ids: seq<string>, fetch: string -> Fetch): (r: Expansion)
    ensures |r.songs| <= |ids| && r.fetches <= |ids|
    ensures store.Keys <= r.store.Keys
    ensures forall s :: s in r.songs ==> s.author == nick && NeedsSource(s)
    decreases |ids|
  {
    if |ids| == 0 then Expansion([], store, 0)
    else
      var e := ExpandPlaylist(store, nick, ids[..|ids| - 1], fetch);
      var st := PlaylistStep(e.store, nick, ids[|ids| - 1], fetch);
      var songs := e.songs + (if st.song.Some? then [st.song.value] else []);
      Expansion(songs, st.store, e.fetches + if st.fetched then 1 else 0)
  }

  /** Expanding one more id is one more step from the store the expansion left behind. */
  lemma ExpandPlaylistLast(store: Store, nick: string, ids: seq<string>, id: string, all: seq<string>, fetch: string -> Fetch)
    requires all == ids + [id]
    ensures
      var e := ExpandPlaylist(store, nick, ids, fetch);
      var st := PlaylistStep(e.store, nick, id, fetch);
      ExpandPlaylist(store, nick, all, fetch) ==
        Expansion(e.songs + (if st.song.Some? then [st.song.value] else []), st.store, e.fetches + if st.fetched then 1 else 0)
  {
    assert all[..|all| - 1] == ids;
  }

  lemma SongsRegroup(x: seq<Song>, y: seq<Song>, z: seq<Song>)
    ensures x + (y + z) == (x + y) + z
  {
  }

  /** Expanding `a + b` is expanding `a`, then `b` from the store `a` left behind: songs come
      out in id order. */
  lemma {:induction false} ExpandPlaylistAppend(store: Store, nick: string, a: seq<string>, b: seq<string>, fetch: string -> Fetch)
    ensures
      var ea := ExpandPlaylist(store, nick, a, fetch);
      var eb := ExpandPlaylist(ea.store, nick, b, fetch);
      ExpandPlaylist(store, nick, a + b, fetch) == Expansion(ea.songs + eb.songs, eb.store, ea.fetches + eb.fetches)
    decreases |b|
  {
    if |b| == 0 {
      assert a + b == a;
    } else {
      var b', last := b[..|b| - 1], b[|b| - 1];
      assert b == b' + [last];
      assert a + b == (a + b') + [last];
      ExpandPlaylistAppend(store, nick, a, b', fetch);
      var ea := ExpandPlaylist(store, nick, a, fetch);
      ExpandPlaylistLast(ea.store, nick, b', last, b, fetch);
      ExpandPlaylistLast(store, nick, a + b', last, a + b, fetch);
      var eb' := ExpandPlaylist(ea.store, nick, b', fetch);
      var st := PlaylistStep(eb'.store, nick, last, fetch);
      SongsRegroup(ea.songs, eb'.songs, if st.song.Some? then [st.song.value] else []);
    }
  }

  /** One song per id, in order, each with the id's short link and its stored title and
      duration. */
  ghost predicate StoredSongs(store: Store, ids: seq<string>, songs: seq<Song>) {
    && |songs| == |ids|
    && forall k :: 0 <= k < |ids| ==>
         && GetSongId(ShortLink(ids[k])) in store
         && songs[k].url == ShortLink(ids[k])
         && songs[k].title == store[GetSongId(ShortLink(ids[k]))].title
         && songs[k].duration == store[GetSongId(ShortLink(ids[k]))].duration
  }

  /** The last round of the expansion over stored ids: a stored id extends the songs by its
      stored row without a fetch. */
  lemma ExpandCachedStep(store: Store, nick: string, ids: seq<string>, id: string, all: seq<string>, fetch: string -> Fetch)
    requires all == ids + [id] && GetSongId(ShortLink(id)) in store
    requires var e := ExpandPlaylist(store, nick, ids, fetch);
      e.fetches == 0 && e.store == store && StoredSongs(store, ids, e.songs)
    ensures var e := ExpandPlaylist(store, nick, all, fetch);
      e.fetches == 0 && e.store == store && StoredSongs(store, all, e.songs)
  {
    var e := ExpandPlaylist(store, nick, ids, fetch);
    var st := PlaylistStep(store, nick, id, fetch);
    assert !st.fetched && st.store == store && st.song.Some?;
    assert (ids + [id])[..|ids|] == ids;
    assert ExpandPlaylist(store, nick, ids + [id], fetch) == Expansion(e.songs + [st.song.value], store, 0);
    StoredSongsAppend(store, ids, e.songs, id, st.song.value);
  }

  lemma StoredSongsAppend(store: Store, ids: seq<string>, songs: seq<Song>, id: string, song: Song)
    requires StoredSongs(store, ids, songs)
    requires GetSongId(ShortLink(id)) in store && song.url == ShortLink(id)
    requires song.title == store[GetSongId(ShortLink(id))].title
    requires song.duration == store[GetSongId(ShortLink(id))].duration
    ensures StoredSongs(store, ids + [id], songs + [song])
  {
  }

  /** A playlist whose ids are all stored needs no API call and yields one song per id, in
      order, with the stored title and duration. */
  lemma {:induction false} ExpandCachedPlaylist(store: Store, nick: string, ids: seq<string>, fetch: string -> Fetch)
    requires forall id :: id in ids ==> GetSongId(ShortLink(id)) in store
    ensures var e := ExpandPlaylist(store, nick, ids, fetch);
      e.fetches == 0 && e.store == store && StoredSongs(store, ids, e.songs)
    decreases |ids|
  {
    if |ids| > 0 {
      var ids', last := ids[..|ids| - 1], ids[|ids| - 1];
      assert ids == ids' + [last];
      assert forall id :: id in ids' ==> id in ids;
      ExpandCachedPlaylist(store, nick, ids', fetch);
      ExpandCachedStep(store, nick, ids', last, ids, fetch);
    }
  }
}

=== FILE: durations.dfy ===
/** Reading durations in the designator form of ISO 8601 and printing them as a clock. */
module Durations {
  import opened Wrappers
  import opened Text

  /** Length of the run of digits at the front of `s`. */
  function DigitRun(s: string): (k: nat)
    ensures k <= |s|
    ensures AllDigits(s[..k])
    ensures k < |s| ==> !IsDigit(s[k])
    decreases |s|
  {
    if |s| == 0 || !IsDigit(s[0]) then 0
    else
      var k := 1 + DigitRun(s[1..]);
      assert s[..k] == [s[0]] + s[1..][..k - 1];
      k
  }

  /** The value of the leftmost match of the regular expression `(\d+)<tag>` in `s`, for a
      non-digit `tag`: the first maximal run of digits that is immediately followed by `tag`. */
  function Tagged(s: string, tag: char): Option<nat>
    requires !IsDigit(tag)
    decreases |s|
  {
    if |s| == 0 then None
    else if !IsDigit(s[0]) then Tagged(s[1..], tag)
    else
      var k := DigitRun(s);
      if k < |s| && s[k] == tag then Some(DigitsValue(s[..k])) else Tagged(s[k..], tag)
  }

  /** `format_youtube_duration`: hours, minutes and seconds read from their designators, each
      missing one counting as zero. Any other designator (days, weeks) is ignored. */
  function FormatYoutubeDuration(d: string): nat {
    3600 * Tagged(d, 'H').GetOr(0) + 60 * Tagged(d, 'M').GetOr(0) + Tagged(d, 'S').GetOr(0)
  }

  /** One designator component of an ISO 8601 duration: the number and its letter, or nothing. */
  function Component(v: Option<nat>, designator: char): string {
    match v
    case Some(n) => NatToString(n) + [designator]
    case None => ""
  }

  /** The time-only duration `PT[nH][nM][nS]` of section 4.4.3.2 of ISO 8601:2004, as the video
      API writes it, e.g. `PT2M14S`. */
  function IsoDuration(h: Option<nat>, m: Option<nat>, s: Option<nat>): string {
    "PT" + Component(h, 'H') + Component(m, 'M') + Component(s, 'S')
  }

  lemma {:induction false} TaggedSkipsText(a: string, b: string, tag: char)
    requires !IsDigit(tag)
    requires forall i :: 0 <= i < |a| ==> !IsDigit(a[i])
    ensures Tagged(a + b, tag) == Tagged(b, tag)
    decreases |a|
  {
    if |a| > 0 {
      assert (a + b)[0] == a[0];
      assert (a + b)[1..] == a[1..] + b;
      assert forall i :: 0 <= i < |a[1..]| ==> a[1..][i] == a[i + 1];
      TaggedSkipsText(a[1..], b, tag);
    } else {
      assert a + b == b;
    }
  }

  lemma {:induction false} DigitRunOf(d: string, c: char, rest: string)
    requires |d| > 0 && AllDigits(d) && !IsDigit(c)
    ensures DigitRun(d + [c] + rest) == |d|
    decreases |d|
  {
    var s := d + [c] + rest;
    assert s[0] == d[0];
    if |d| == 1 {
      assert s[1..] == [c] + rest;
    } else {
      assert s[1..] == d[1..] + [c] + rest;
      assert AllDigits(d[1..]) by {
        assert forall i :: 0 <= i < |d[1..]| ==> d[1..][i] == d[i + 1];
      }
      DigitRunOf(d[1..], c, rest);
    }
  }

  /** A component followed by anything: it is the match when its designator is the tag,
      otherwise the search goes on past it. */
  lemma TaggedComponent(v: Option<nat>, c: char, rest: string, tag: char)
    requires !IsDigit(c) && !IsDigit(tag)
    ensures Tagged(Component(v, c) + rest, tag) ==
      if v.Some? && c == tag then Some(v.value) else Tagged(rest, tag)
  {
    if v.Some? {
      var d := NatToString(v.value);
      var s := Component(v, c) + rest;
      assert s == d + [c] + rest;
      DigitRunOf(d, c, rest);
      assert s[..|d|] == d;
      assert s[|d|..] == [c] + rest;
      TaggedSkipsText([c], rest, tag);
    } else {
      assert Component(v, c) + rest == rest;
    }
  }

  /** Reading back a rendered duration yields 3600·H + 60·M + S, a missing component counting
      as zero; e.g. `PT2M14S` reads as 134. */
  lemma IsoDurationRoundTrip(h: Option<nat>, m: Option<nat>, s: Option<nat>)
    ensures FormatYoutubeDuration(IsoDuration(h, m, s)) ==
      3600 * h.GetOr(0) + 60 * m.GetOr(0) + s.GetOr(0)
  {
    var cs := Component(s, 'S');
    var cm := Component(m, 'M');
    var ch := Component(h, 'H');
    var d := IsoDuration(h, m, s);
    assert d == "PT" + (ch + (cm + (cs + "")));
    forall tag | tag in ['H', 'M', 'S']
      ensures Tagged(d, tag) == if tag == 'H' then h else if tag == 'M' then m else s
    {
      TaggedSkipsText("PT", ch + (cm + (cs + "")), tag);
      TaggedComponent(h, 'H', cm + (cs + ""), tag);
      TaggedComponent(m, 'M', cs + "", tag);
      TaggedComponent(s, 'S', "", tag);
    }
  }

  /** A day designator is dropped: `P<n>DT<h>H` reads as `h` hours whatever `n` is, so one day
      and one hour reads as one hour. */
  lemma DaysAreIgnored(days: nat, h: nat)
    ensures FormatYoutubeDuration("P" + Component(Some(days), 'D') + "T" + Component(Some(h), 'H')) == 3600 * h
  {
    var cd := Component(Some(days), 'D');
    var ch := Component(Some(h), 'H');
    var d := "P" + cd + "T" + ch;
    assert d == "P" + (cd + ("T" + (ch + "")));
    forall tag | tag in ['H', 'M', 'S']
      ensures Tagged(d, tag) == if tag == 'H' then Some(h) else None
    {
      TaggedSkipsText("P", cd + ("T" + (ch + "")), tag);
      TaggedComponent(Some(days), 'D', "T" + (ch + ""), tag);
      TaggedSkipsText("T", ch + "", tag);
      TaggedComponent(Some(h), 'H', "", tag);
    }
  }

  /** `h:mm:ss`: a run of hour digits, then two colon-separated pairs of digits. */
  predicate ClockForm(t: string) {
    && |t| >= 7
    && t[|t| - 6] == ':' && t[|t| - 3] == ':'
    && AllDigits(t[..|t| - 6]) && AllDigits(t[|t| - 5..|t| - 3]) && AllDigits(t[|t| - 2..])
  }

  /** The number of seconds a clock string denotes. */
  function ClockSeconds(t: string): nat
    requires ClockForm(t)
  {
    3600 * DigitsValue(t[..|t| - 6]) + 60 * DigitsValue(t[|t| - 5..|t| - 3]) + DigitsValue(t[|t| - 2..])
  }

  /** `convert_seconds`: the time of day `seconds` falls on, printed as `h:mm:ss`. Python's `%`
      with a positive modulus never goes negative, like Dafny's. */
  function ConvertSeconds(seconds: int): (r: string)
    ensures ClockForm(r)
    ensures ClockSeconds(r) == seconds % 86400
    ensures DigitsValue(r[..|r| - 6]) < 24
    ensures DigitsValue(r[|r| - 5..|r| - 3]) < 60 && DigitsValue(r[|r| - 2..]) < 60
  {
    var t := seconds % (24 * 3600);
    var hour := t / 3600;
    var rest := t % 3600;
    var minutes := rest / 60;
    var secs := rest % 60;
    var hs := NatToString(hour);
    var r := hs + ":" + Pad2(minutes) + ":" + Pad2(secs);
    assert r[..|r| - 6] == hs;
    assert r[|r| - 5..|r| - 3] == Pad2(minutes);
    assert r[|r| - 2..] == Pad2(secs);
    r
  }
}

=== FILE: extractor.dfy ===
/** Building a song record from what the video extractor reports (`YouTubeExtractorService.search`). */
module Extractor {
  import opened Wrappers
  import opened Songs
  import opened Formats

  /** What one extraction attempt reports; a missing string field is "", a missing duration 0. */
  datatype Info = Info(webpageUrl: string, title: string, duration: nat, thumbnail: Option<string>, formats: seq<Format>)

  /** `search`: the first extraction (`None` when it raised), then a retry with a JavaScript
      runtime when it raised, then one more retry when the result carries no audio format. The
      song takes the best audio source, or "" when none is selected. */
  function Search(author: string, first: Option<Info>, retry: Option<Info>, audioRetry: Option<Info>): (r: Option<Song>)
    ensures r.None? <==> first.None? && retry.None?
    ensures r.Some? ==>
      var info := if first.Some? then first.value else retry.value;
      var used := if !HasAudioFormats(info.formats) && audioRetry.Some? then audioRetry.value else info;
      && r.value.author == author
      && r.value.url == used.webpageUrl && r.value.title == used.title && r.value.duration == used.duration
      && r.value.thumbnail == used.thumbnail
      && (NeedsSource(r.value) <==> forall i :: 0 <= i < |used.formats| ==> !HasUrl(used.formats[i]))
      && (!NeedsSource(r.value) ==>
            exists i :: (0 <= i < |used.formats| && HasUrl(used.formats[i]) &&
              Some(r.value.source) == used.formats[i].url && r.value.formatId == used.formats[i].formatId))
  {
    if first.None? && retry.None? then None
    else
      var info := if first.Some? then first.value else retry.value;
      var used := if !HasAudioFormats(info.formats) && audioRetry.Some? then audioRetry.value else info;
      var (sourceUrl, formatId) := SelectBestAudioSource(used.formats);
      Some(Song(author, used.webpageUrl, used.title, used.duration, sourceUrl.GetOr(""), used.thumbnail, formatId))
  }
}

=== FILE: formats.dfy ===
/** Choosing the audio stream of a video among the formats the extractor lists. */
module Formats {
  import opened Wrappers
  import opened Text

  /** One entry of the extractor's format list; absent keys are `None`. */
  datatype Format = Format(
    url: Option<string>,
    acodec: Option<string>,
    formatId: Option<string>,
    abr: Option<real>,
    tbr: Option<real>)

  /** `f.get("url")` is truthy. */
  predicate HasUrl(f: Format) {
    f.url.Some? && f.url.value != ""
  }

  /** A format carrying audio: it has a url and an acodec that is present and not "none". */
  predicate IsAudio(f: Format) {
    HasUrl(f) && f.acodec.Some? && f.acodec.value != "" && f.acodec.value != "none"
  }

  /** The audio codec names opus, case-insensitively. */
  predicate IsOpus(f: Format) {
    Contains(Lower(f.acodec.GetOr("")), "opus")
  }

  /** `float(abr or tbr or 0)`: a zero or missing per-audio bitrate falls back to the total one. */
  function Score(f: Format): real {
    if f.abr.Some? && f.abr.value != 0.0 then f.abr.value
    else if f.tbr.Some? && f.tbr.value != 0.0 then f.tbr.value
    else 0.0
  }

  /** Some format carries audio. */
  function HasAudioFormats(fs: seq<Format>): (b: bool)
    ensures b <==> exists i :: 0 <= i < |fs| && IsAudio(fs[i])
    decreases |fs|
  {
    if |fs| == 0 then false
    else IsAudio(fs[0]) || (assert forall i :: 1 <= i < |fs| ==> fs[i] == fs[1..][i - 1]; HasAudioFormats(fs[1..]))
  }

  /** How many formats of `fs` satisfy `p`. */
  function CountWhere(fs: seq<Format>, p: Format -> bool): nat
    decreases |fs|
  {
    if |fs| == 0 then 0
    else CountWhere(fs[..|fs| - 1], p) + if p(fs[|fs| - 1]) then 1 else 0
  }

  /** The formats of `fs` that satisfy `p`, in their original order: there are as many as
      `fs` has, and the one at position `j` of `fs` lands at the number of such formats
      before it. */
  function Keep(fs: seq<Format>, p: Format -> bool): (r: seq<Format>)
    ensures |r| == CountWhere(fs, p)
    ensures forall j :: 0 <= j < |fs| && p(fs[j]) ==>
      CountWhere(fs[..j], p) < |r| && r[CountWhere(fs[..j], p)] == fs[j]
    ensures |r| <= |fs|
    ensures forall f :: f in r <==> f in fs && p(f)
    decreases |fs|
  {
    if |fs| == 0 then []
    else
      var init := fs[..|fs| - 1];
      assert forall j :: 0 <= j < |init| ==> init[..j] == fs[..j];
      if p(fs[|fs| - 1]) then Keep(init, p) + [fs[|fs| - 1]]
      else Keep(init, p)
  }

  /** The audio formats, in their original order. */
  function AudioFormats(fs: seq<Format>): seq<Format> {
    Keep(fs, IsAudio)
  }

  /** The opus formats among `fs`, in their original order. */
  function OpusFormats(fs: seq<Format>): seq<Format> {
    Keep(fs, IsOpus)
  }

  /** The formats the best one is chosen from: the opus audio formats when there are any,
      otherwise every audio format. */
  function Candidates(fs: seq<Format>): seq<Format> {
    var audio := AudioFormats(fs);
    var opus := OpusFormats(audio);
    if |opus| > 0 then opus else audio
  }

  /** `k` indexes an element of maximal score, and every earlier element scores less. */
  predicate EarliestMax(cs: seq<Format>, k: nat) {
    && k < |cs|
    && (forall j :: 0 <= j < |cs| ==> Score(cs[j]) <= Score(cs[k]))
    && (forall j :: 0 <= j < k ==> Score(cs[j]) < Score(cs[k]))
  }

  /** Python's `max(cs, key=score)`: the index of the first element of maximal score. */
  function ArgMax(cs: seq<Format>): (k: nat)
    requires |cs| > 0
    ensures EarliestMax(cs, k)
    decreases |cs|
  {
    if |cs| == 1 then 0
    else
      var k := ArgMax(cs[..|cs| - 1]);
      if Score(cs[|cs| - 1]) > Score(cs[k]) then |cs| - 1 else k
  }

  /** The index of the first format with a url. */
  function FirstWithUrl(fs: seq<Format>): (r: Option<nat>)
    ensures r.Some? ==> r.value < |fs| && HasUrl(fs[r.value])
    ensures r.Some? ==> forall j :: 0 <= j < r.value ==> !HasUrl(fs[j])
    ensures r.None? <==> forall j :: 0 <= j < |fs| ==> !HasUrl(fs[j])
    decreases |fs|
  {
    if |fs| == 0 then None
    else if HasUrl(fs[0]) then Some(0)
    else match FirstWithUrl(fs[1..])
      case None => None
      case Some(k) => Some(k + 1)
  }

  /** The format whose url and format id `_select_best_audio_source` returns: without audio
      formats the first with a url, otherwise the earliest best-scoring candidate. */
  function BestAudioFormat(fs: seq<Format>): (r: Option<Format>)
    ensures r.Some? ==> r.value in fs && HasUrl(r.value)
    ensures r.None? <==> forall i :: 0 <= i < |fs| ==> !HasUrl(fs[i])
  {
    if |AudioFormats(fs)| == 0 then
      match FirstWithUrl(fs)
      case Some(i) => Some(fs[i])
      case None => None
    else
      CandidatesAreAudio(fs);
      var cs := Candidates(fs);
      assert cs[ArgMax(cs)] in cs;
      Some(cs[ArgMax(cs)])
  }

  /** With an audio format present the candidates are non-empty audio formats of the list,
      all of them opus when some audio format is. */
  lemma CandidatesAreAudio(fs: seq<Format>)
    requires |AudioFormats(fs)| > 0
    ensures HasAudioFormats(fs) && |Candidates(fs)| > 0
    ensures forall c :: c in Candidates(fs) ==> c in fs && IsAudio(c)
    ensures (exists j :: 0 <= j < |fs| && IsAudio(fs[j]) && IsOpus(fs[j])) ==>
      forall c :: c in Candidates(fs) ==> IsOpus(c)
  {
    var audio := AudioFormats(fs);
    assert audio[0] in audio;
    if exists j :: 0 <= j < |fs| && IsAudio(fs[j]) && IsOpus(fs[j]) {
      var j :| 0 <= j < |fs| && IsAudio(fs[j]) && IsOpus(fs[j]);
      assert fs[j] in OpusFormats(audio);
    }
  }

  /** `_select_best_audio_source`: the (url, format_id) pair of the best audio format; whatever
      it returns comes from one format that has a url, and it returns no url only when no format
      has one. */
  function SelectBestAudioSource(fs: seq<Format>): (r: (Option<string>, Option<string>))
    ensures r.0.Some? ==> exists i :: 0 <= i < |fs| && HasUrl(fs[i]) && r == (fs[i].url, fs[i].formatId)
    ensures r.0.None? <==> forall i :: 0 <= i < |fs| ==> !HasUrl(fs[i])
  {
    match BestAudioFormat(fs)
    case Some(f) =>
      var i :| 0 <= i < |fs| && fs[i] == f;
      (f.url, f.formatId)
    case None => (None, None)
  }

  /** Without audio formats the selection is the first format with a url, else nothing. */
  lemma SelectWithoutAudio(fs: seq<Format>)
    requires !HasAudioFormats(fs)
    ensures match FirstWithUrl(fs)
      case Some(i) => SelectBestAudioSource(fs) == (fs[i].url, fs[i].formatId)
      case None => SelectBestAudioSource(fs) == (None, None)
  {
    if |AudioFormats(fs)| > 0 {
      CandidatesAreAudio(fs);
    }
  }

  /** With audio formats the selection is an audio format, opus when one exists, of maximal
      score among the candidates, the earliest such. */
  lemma SelectWithAudio(fs: seq<Format>)
    requires HasAudioFormats(fs)
    ensures BestAudioFormat(fs).Some?
    ensures var best := BestAudioFormat(fs).value;
      && SelectBestAudioSource(fs) == (best.url, best.formatId)
      && IsAudio(best)
      && ((exists j :: 0 <= j < |fs| && IsAudio(fs[j]) && IsOpus(fs[j])) ==> IsOpus(best))
      && exists k: nat :: EarliestMax(Candidates(fs), k) && Candidates(fs)[k] == best
  {
    var i :| 0 <= i < |fs| && IsAudio(fs[i]);
    assert fs[i] in AudioFormats(fs);
    CandidatesAreAudio(fs);
    var cs := Candidates(fs);
    var k := ArgMax(cs);
    assert cs[k] in cs;
  }

  /** The index of the first audio format. */
  function FirstAudio(fs: seq<Format>): (r: Option<nat>)
    ensures r.Some? ==> r.value < |fs| && IsAudio(fs[r.value])
    ensures r.Some? ==> forall j :: 0 <= j < r.value ==> !IsAudio(fs[j])
    ensures r.None? <==> !HasAudioFormats(fs)
    decreases |fs|
  {
    if |fs| == 0 then None
    else if IsAudio(fs[0]) then Some(0)
    else
      assert forall i :: 1 <= i < |fs| ==> fs[i] == fs[1..][i - 1];
      match FirstAudio(fs[1..])
      case None => None
      case Some(k) => Some(k + 1)
  }

  /** The older helper `find_best_song_format`: the first audio format's url, else the first url. */
  function FindBestSongFormat(fs: seq<Format>): (r: Option<string>)
    ensures r.Some? ==> r.value != ""
    ensures r.None? <==> forall i :: 0 <= i < |fs| ==> !HasUrl(fs[i])
    ensures HasAudioFormats(fs) ==>
      exists i :: 0 <= i < |fs| && IsAudio(fs[i]) && r == fs[i].url &&
        forall j :: 0 <= j < i ==> !IsAudio(fs[j])
  {
    match FirstAudio(fs)
    case Some(i) => fs[i].url
    case None =>
      match FirstWithUrl(fs)
      case Some(i) => fs[i].url
      case None => None
  }

  /** Without any audio format the two selectors agree on the url they return; with one,
      the older helper ignores codec and bitrate and takes the first audio format. */
  lemma FindBestMatchesFallback(fs: seq<Format>)
    ensures !HasAudioFormats(fs) ==> FindBestSongFormat(fs) == SelectBestAudioSource(fs).0
    ensures HasAudioFormats(fs) ==> FindBestSongFormat(fs) == fs[FirstAudio(fs).value].url
  {
    if !HasAudioFormats(fs) {
      SelectWithoutAudio(fs);
    }
  }
}

=== FILE: legacy.dfy ===
/** The older, simpler music cog: a queue of (track, voice channel) pairs played head first,
    a voice client that starts out as an empty-string placeholder, and a guard that admits
    only the play command while the bot has never joined a channel. */
module LegacyMusic {
  import opened Wrappers
  import opened Text

  /** What the older extractor keeps of a video: the stream url, the title and the length. */
  datatype Track = Track(source: string, title: string, duration: nat)

  /** A queued track and the voice channel of whoever asked for it. */
  datatype Queued = Queued(track: Track, channel: string)

  /** The voice client field: the initial empty string, the `None` a disconnect leaves
      behind, or a client in a named channel. */
  datatype Vc = Unset | Cleared | Client(channel: string, connected: bool)

  /** The cog's state. */
  datatype Cog = Cog(queue: seq<Queued>, nowPlaying: seq<Queued>, isPlaying: bool, vc: Vc)

  /** A fresh cog. */
  function Initial(): (c: Cog)
    ensures c.queue == [] && c.nowPlaying == [] && !c.isPlaying && c.vc == Unset
  {
    Cog([], [], false, Unset)
  }

  /** Whether `play` on the voice client gets a stream going: the client must exist and be
      connected, and the stream must open. Any other case raises. */
  predicate Streams(vc: Vc, source: string, playOk: string -> bool) {
    vc.Client? && vc.connected && playOk(source)
  }

  // ---------------------------------------------------------------------------------------
  // play_next

  /** `play_next`: on an empty queue, stop; otherwise the head leaves the queue for the
      now-playing list, replacing what was there, and plays. A failure to play is caught and
      only clears the playing flag: the head is gone all the same. */
  function PlayNext(c: Cog, playOk: string -> bool): (r: Cog)
    ensures |c.queue| == 0 ==> r == c.(isPlaying := false)
    ensures |c.queue| > 0 ==> |r.queue| == |c.queue| - 1 && |r.nowPlaying| > 0
    ensures |c.queue| > 0 ==> c.queue == [r.nowPlaying[|r.nowPlaying| - 1]] + r.queue
    ensures |c.queue| > 0 ==> (r.isPlaying <==> Streams(c.vc, c.queue[0].track.source, playOk))
    ensures |c.nowPlaying| <= 1 ==> |r.nowPlaying| <= 1
    ensures r.vc == c.vc
  {
    if |c.queue| == 0 then c.(isPlaying := false)
    else
      var kept := if |c.nowPlaying| > 0 then c.nowPlaying[..|c.nowPlaying| - 1] else [];
      c.(queue := c.queue[1..], nowPlaying := kept + [c.queue[0]],
         isPlaying := Streams(c.vc, c.queue[0].track.source, playOk))
  }

  /** `play_next` run `k` times, as the end-of-stream callback does. */
  function PlayNextTimes(c: Cog, k: nat, playOk: string -> bool): Cog
    decreases k
  {
    if k == 0 then c else PlayNextTimes(PlayNext(c, playOk), k - 1, playOk)
  }

  /** Each `play_next` takes exactly the head: after `k` of them the queue is what followed
      the first `k` entries, and the last one taken is playing. */
  lemma {:induction false} PlayNextTakesHeads(c: Cog, k: nat, playOk: string -> bool)
    requires 0 < k <= |c.queue|
    ensures PlayNextTimes(c, k, playOk).queue == c.queue[k..]
    ensures var r := PlayNextTimes(c, k, playOk); |r.nowPlaying| > 0 && r.nowPlaying[|r.nowPlaying| - 1] == c.queue[k - 1]
    decreases k
  {
    var n := PlayNext(c, playOk);
    if k > 1 {
      PlayNextTakesHeads(n, k - 1, playOk);
      assert n.queue[k - 1..] == c.queue[k..];
    }
  }

  // ---------------------------------------------------------------------------------------
  // try_to_connect

  /** How `try_to_connect` ends: normally, or with an exception that aborts the command that
      called it (the state it reached is kept). */
  datatype Connected = Connected(cog: Cog) | Raised(cog: Cog)

  /** `try_to_connect`: with no client (the placeholder or `None`), connect to the channel of
      the queue's head, swallowing any failure, including an empty queue. With a connected
      client in another channel, disconnect (which leaves `None`) and connect there; a failure
      now escapes, as does an empty queue. A client in the same channel, or one not connected,
      is left alone. */
  function TryToConnect(c: Cog, connectOk: string -> bool): (r: Connected)
    ensures r.cog.queue == c.queue && r.cog.nowPlaying == c.nowPlaying && r.cog.isPlaying == c.isPlaying
    ensures r.cog.vc != c.vc ==> |c.queue| > 0
    ensures r.cog.vc.Client? ==> r.cog.vc == c.vc || r.cog.vc == Client(c.queue[0].channel, true)
    ensures r.Raised? <==> c.vc.Client? && c.vc.connected && (|c.queue| == 0 || (c.vc.channel != c.queue[0].channel && !connectOk(c.queue[0].channel)))
    ensures r.Raised? && |c.queue| > 0 ==> r.cog.vc == Cleared
    ensures !c.vc.Client? && |c.queue| > 0 && connectOk(c.queue[0].channel) ==> r == Connected(c.(vc := Client(c.queue[0].channel, true)))
    ensures !c.vc.Client? && (|c.queue| == 0 || !connectOk(c.queue[0].channel)) ==> r == Connected(c)
    ensures c.vc.Client? && (!c.vc.connected || (|c.queue| > 0 && c.vc.channel == c.queue[0].channel)) ==> r == Connected(c)
    ensures c.vc.Client? && c.vc.connected && |c.queue| == 0 ==> r == Raised(c)
    ensures c.vc.Client? && c.vc.connected && |c.queue| > 0 && c.vc.channel != c.queue[0].channel && connectOk(c.queue[0].channel) ==>
      r == Connected(c.(vc := Client(c.queue[0].channel, true)))
  {
    match c.vc
    case Client(channel, connected) =>
      if !connected then Connected(c)
      else if |c.queue| == 0 then Raised(c)
      else if channel == c.queue[0].channel then Connected(c)
      else if connectOk(c.queue[0].channel) then Connected(c.(vc := Client(c.queue[0].channel, true)))
      else Raised(c.(vc := Cleared))
    case _ =>
      if |c.queue| > 0 && connectOk(c.queue[0].channel) then Connected(c.(vc := Client(c.queue[0].channel, true)))
      else Connected(c)
  }

  /** Once connected to the head's channel, trying again does nothing. */
  lemma TryToConnectSettles(c: Cog, connectOk: string -> bool)
    requires |c.queue| > 0
    requires TryToConnect(c, connectOk).cog.vc == Client(c.queue[0].channel, true)
    ensures TryToConnect(TryToConnect(c, connectOk).cog, connectOk) == Connected(TryToConnect(c, connectOk).cog)
  {
  }

  // ---------------------------------------------------------------------------------------
  // play

  /** The entries a `play` request adds: a query mentioning "list" is read as a playlist
      (nothing when that fails or is empty), anything else as one video (nothing when the
      search fails). Every entry is pinned to the requester's channel. */
  function Added(query: string, channel: string, search: string -> Option<Track>,
                 playlist: string -> Option<seq<Track>>): (r: seq<Queued>)
    ensures forall i :: 0 <= i < |r| ==> r[i].channel == channel
    ensures Contains(query, "list") ==> |r| == |playlist(query).GetOr([])|
    ensures Contains(query, "list") ==> forall i :: 0 <= i < |r| ==> r[i].track == playlist(query).value[i]
    ensures !Contains(query, "list") ==> r == if search(query).Some? then [Queued(search(query).value, channel)] else []
  {
    if Contains(query, "list") then
      match playlist(query)
      case None => []
      case Some(tracks) => seq(|tracks|, i requires 0 <= i < |tracks| => Queued(tracks[i], channel))
    else
      match search(query)
      case None => []
      case Some(t) => [Queued(t, channel)]
  }

  /** The lookups and side effects `play` depends on. */
  datatype Oracles = Oracles(
    search: string -> Option<Track>,
    playlist: string -> Option<seq<Track>>,
    connectOk: string -> bool,
    playOk: string -> bool)

  /** `play` once admitted: add the request's entries; then, unless already playing, connect
      and play the next entry. An exception from connecting ends the command before that. */
  function Play(c: Cog, query: string, channel: string, o: Oracles): (r: Cog)
    ensures c.isPlaying ==> r == c.(queue := c.queue + Added(query, channel, o.search, o.playlist))
    ensures !c.isPlaying && r.isPlaying ==> |r.nowPlaying| > 0 && c.queue + Added(query, channel, o.search, o.playlist) == [r.nowPlaying[|r.nowPlaying| - 1]] + r.queue
    ensures r.isPlaying && !c.isPlaying ==> r.vc.Client? && r.vc.connected
    ensures |c.nowPlaying| <= 1 ==> |r.nowPlaying| <= 1
    ensures var queue := c.queue + Added(query, channel, o.search, o.playlist);
      !c.isPlaying && TryToConnect(c.(queue := queue), o.connectOk).Raised? ==>
        r.queue == queue && r.nowPlaying == c.nowPlaying && !r.isPlaying
    ensures var queue := c.queue + Added(query, channel, o.search, o.playlist);
      !c.isPlaying && TryToConnect(c.(queue := queue), o.connectOk).Connected? && |queue| > 0 ==>
        && |r.nowPlaying| > 0 && queue == [r.nowPlaying[|r.nowPlaying| - 1]] + r.queue
        && (r.isPlaying <==> Streams(r.vc, queue[0].track.source, o.playOk))
    ensures !c.isPlaying && |c.queue + Added(query, channel, o.search, o.playlist)| == 0 ==>
      r.queue == [] && r.nowPlaying == c.nowPlaying && !r.isPlaying
  {
    var queued := c.(queue := c.queue + Added(query, channel, o.search, o.playlist));
    if queued.isPlaying then queued
    else
      match TryToConnect(queued, o.connectOk)
      case Raised(x) => x
      case Connected(x) => PlayNext(x, o.playOk)
  }

  /** From a fresh cog, a found song is played at once in the requester's channel and the
      queue is left empty. */
  lemma PlayFromFresh(query: string, channel: string, o: Oracles)
    requires !Contains(query, "list") && o.search(query).Some?
    requires o.connectOk(channel) && o.playOk(o.search(query).value.source)
    ensures Play(Initial(), query, channel, o) == Cog([], [Queued(o.search(query).value, channel)], true, Client(channel, true))
  {
  }

  // ---------------------------------------------------------------------------------------
  // queue

  /** One line of the listing: the zero-based position, " - ", the title. */
  function Line(i: nat, q: Queued): string {
    NatToString(i) + " - " + q.track.title + "\n"
  }

  /** The listing's lines in queue order. */
  function Lines(queue: seq<Queued>): (r: seq<string>)
    ensures |r| == |queue|
    ensures forall i :: 0 <= i < |r| ==> r[i] == Line(i, queue[i])
  {
    seq(|queue|, i requires 0 <= i < |queue| => Line(i, queue[i]))
  }

  /** The `queue` listing, built line by line: the lines numbered from 0, in queue order;
      nothing when the queue is empty. */
  method Listing(queue: seq<Queued>) returns (shown: Option<string>)
    ensures shown.None? <==> |queue| == 0
    ensures shown.Some? ==> shown.value == Concat(Lines(queue))
  {
    if |queue| == 0 {
      return None;
    }
    var text := "";
    var k := 0;
    while k < |queue|
      invariant k <= |queue|
      invariant text == Concat(Lines(queue)[..k])
    {
      ListingStep(queue, k);
      text := text + Line(k, queue[k]);
      k := k + 1;
    }
    assert Lines(queue)[..|queue|] == Lines(queue);
    return Some(text);
  }

  /** One round of the listing loop appends the line of entry `k`. */
  lemma ListingStep(queue: seq<Queued>, k: nat)
    requires k < |queue|
    ensures Concat(Lines(queue)[..k + 1]) == Concat(Lines(queue)[..k]) + Line(k, queue[k])
  {
    assert Lines(queue)[..k + 1] == Lines(queue)[..k] + [Line(k, queue[k])];
    ConcatAppend(Lines(queue)[..k], Line(k, queue[k]));
  }

  /** Listing a queue with one more entry adds one line, numbered with the old length. */
  lemma ListingAppend(queue: seq<Queued>, q: Queued)
    ensures Concat(Lines(queue + [q])) == Concat(Lines(queue)) + Line(|queue|, q)
  {
    assert Lines(queue + [q]) == Lines(queue) + [Line(|queue|, q)];
    ConcatAppend(Lines(queue), Line(|queue|, q));
  }

  /** A line reads back as its position and title. */
  lemma LineRoundTrip(i: nat, q: Queued)
    ensures var l := Line(i, q); DigitsValue(l[..|NatToString(i)|]) == i && l[|NatToString(i)|..|l| - 1] == " - " + q.track.title
  {
    var l := Line(i, q);
    assert l[..|NatToString(i)|] == NatToString(i);
  }

  // ---------------------------------------------------------------------------------------
  // skip

  /** How `play` fares on a client that may already be streaming: a busy client raises,
      whatever the source. */
  function WhileIdle(playOk: string -> bool, busy: bool): string -> bool {
    src => !busy && playOk(src)
  }

  /** `skip`: with a client that is streaming, stop it and call `play_next` at once; with a
      client that is idle or no client at all, only a message. With the `None` a failed move
      leaves, reading the client's state fails and nothing happens. Stopping the stream also
      fires its end-of-stream callback, a second `play_next`. Whichever of the two runs first
      plays on a client that the stop left idle; the other finds the client streaming again,
      so its `play` raises and only clears the playing flag. The result is the state once
      both have run. */
  function Skip(c: Cog, streaming: bool, playOk: string -> bool): (r: Cog)
    ensures !(c.vc.Client? && streaming) ==> r == c
    ensures c.vc.Client? && streaming ==> |r.queue| == if |c.queue| >= 2 then |c.queue| - 2 else 0
    ensures r.vc == c.vc
  {
    if c.vc.Client? && streaming then
      var first := PlayNext(c, playOk);
      PlayNext(first, WhileIdle(playOk, first.isPlaying))
    else c
  }

  /** A skip with two or more entries queued takes two of them. When the first of them
      streams, the second is shown as now playing but its `play` raised: it is never heard,
      and the playing flag ends false while the first one streams. */
  lemma SkipTakesTwo(c: Cog, playOk: string -> bool)
    requires c.vc.Client? && |c.queue| >= 2
    ensures var r := Skip(c, true, playOk);
      && r.queue == c.queue[2..]
      && |r.nowPlaying| > 0 && r.nowPlaying[|r.nowPlaying| - 1] == c.queue[1]
      && (Streams(c.vc, c.queue[0].track.source, playOk) ==> !r.isPlaying)
      && (!Streams(c.vc, c.queue[0].track.source, playOk) ==> (r.isPlaying <==> Streams(c.vc, c.queue[1].track.source, playOk)))
  {
  }

  /** `skip` as evidently intended: stopping the stream is enough, since its end-of-stream
      callback plays the next entry. */
  function SkipCorrected(c: Cog, streaming: bool, playOk: string -> bool): (r: Cog)
    ensures !(c.vc.Client? && streaming) ==> r == c
    ensures c.vc.Client? && streaming && |c.queue| > 0 ==>
      && r.queue == c.queue[1..]
      && |r.nowPlaying| > 0 && r.nowPlaying[|r.nowPlaying| - 1] == c.queue[0]
      && (r.isPlaying <==> Streams(c.vc, c.queue[0].track.source, playOk))
    ensures c.vc.Client? && streaming && |c.queue| == 0 ==> !r.isPlaying && r.queue == []
  {
    if c.vc.Client? && streaming then PlayNext(c, playOk) else c
  }

  // ---------------------------------------------------------------------------------------
  // check_self_bot

  /** The older bot's command prefix. */
  const Prefix: char := '/'

  /** The first word of a message: `content.split(" ")[0]`. */
  function FirstWord(content: string): (r: string)
    ensures |r| <= |content| && r == content[..|r|] && ' ' !in r
  {
    var r := BeforeFirst(content, " ");
    assert ' ' !in r by {
      if ' ' in r {
        var j :| 0 <= j < |r| && r[j] == ' ';
        assert r[j..j + 1] == " ";
        ContainsAt(r, " ", j);
      }
    }
    r
  }

  lemma FirstWordOf(w: string, rest: string)
    requires ' ' !in w
    ensures FirstWord(w + " " + rest) == w
  {
    var s := w + " " + rest;
    assert s[|w|..|w| + 1] == " ";
    ContainsAt(s, " ", |w|);
    var r := BeforeFirst(s, " ");
    assert FirstWord(s) == r;
    assert s[|r|..|r| + 1] == " ";
    assert s[|r|] == ' ';
    assert forall j :: 0 <= j < |w| ==> s[j] == w[j];
    assert s[..|w|] == w;
  }

  /** The playing-channel half of the guard: while playing, the author must be in the bot's
      channel (without a client to compare with, the check fails). */
  predicate SameChannelWhilePlaying(c: Cog, authorChannel: string) {
    c.isPlaying ==> c.vc.Client? && c.vc.channel == authorChannel
  }

  /** `check_self_bot` as written: it compares the raw first word of the message, prefix
      included, with "play" and the play aliases. */
  function CheckSelfBotAsWritten(c: Cog, authorChannel: string, content: string, playAliases: set<string>): (ok: bool)
    ensures ok ==> SameChannelWhilePlaying(c, authorChannel)
    ensures c.vc != Unset ==> (ok <==> SameChannelWhilePlaying(c, authorChannel))
  {
    if !SameChannelWhilePlaying(c, authorChannel) then false
    else
      var command := FirstWord(content);
      !(c.vc == Unset && command !in playAliases && command != "play")
  }

  /** Before the bot has joined a channel, the prefixed play command itself is refused by
      the guard as written, unless an alias happens to start with the prefix. */
  lemma PrefixedPlayRefused(c: Cog, authorChannel: string, args: string, playAliases: set<string>)
    requires c.vc == Unset
    requires forall a :: a in playAliases ==> |a| == 0 || a[0] != Prefix
    ensures !CheckSelfBotAsWritten(c, authorChannel, "/play " + args, playAliases)
  {
    FirstWordOf("/play", args);
    assert "/play" + " " + args == "/play " + args;
  }

  /** The command name a message invokes: its first word without the prefix. */
  function CommandName(content: string): (r: string)
    ensures ' ' !in r
    ensures |content| > 0 && content[0] == Prefix ==> FirstWord(content) == [Prefix] + r
  {
    var w := FirstWord(content);
    if |w| > 0 && w[0] == Prefix then w[1..] else w
  }

  /** `check_self_bot` with the command name compared without the prefix: while the bot has
      never joined a channel, only "play" and its aliases pass. */
  function CheckSelfBot(c: Cog, authorChannel: string, content: string, playAliases: set<string>): (ok: bool)
    ensures ok ==> SameChannelWhilePlaying(c, authorChannel)
    ensures c.vc != Unset ==> (ok <==> SameChannelWhilePlaying(c, authorChannel))
  {
    SameChannelWhilePlaying(c, authorChannel)
      && !(c.vc == Unset && CommandName(content) !in playAliases && CommandName(content) != "play")
  }

  /** With the prefix stripped, a play request is admitted before the first join, by name or
      by alias; and every other command is refused then. */
  lemma CheckSelfBotNames(c: Cog, authorChannel: string, name: string, args: string, playAliases: set<string>)
    requires c.vc == Unset && !c.isPlaying && ' ' !in name
    ensures CheckSelfBot(c, authorChannel, [Prefix] + name + " " + args, playAliases) <==> name == "play" || name in playAliases
  {
    FirstWordOf([Prefix] + name, args);
    assert [Prefix] + name + " " + args == ([Prefix] + name) + " " + args;
    assert ([Prefix] + name)[1..] == name;
  }

  /** The `play` command as written: the guard as written, then `play` proper; a refused
      request changes nothing. */
  function PlayCommand(c: Cog, authorChannel: string, content: string, query: string,
                       playAliases: set<string>, o: Oracles): (r: Cog)
    ensures !CheckSelfBotAsWritten(c, authorChannel, content, playAliases) ==> r == c
    ensures c.vc != Unset && SameChannelWhilePlaying(c, authorChannel) ==> r == Play(c, query, authorChannel, o)
  {
    if CheckSelfBotAsWritten(c, authorChannel, content, playAliases) then Play(c, query, authorChannel, o) else c
  }

  /** As written, the first prefixed request to a fresh bot is refused and the bot stays as
      it was, unless an alias happens to start with the prefix. */
  lemma FirstPlayIgnored(authorChannel: string, args: string, query: string, playAliases: set<string>, o: Oracles)
    requires forall a :: a in playAliases ==> |a| == 0 || a[0] != Prefix
    ensures PlayCommand(Initial(), authorChannel, "/play " + args, query, playAliases, o) == Initial()
  {
    PrefixedPlayRefused(Initial(), authorChannel, args, playAliases);
  }

  /** The `play` command with the corrected guard. */
  function PlayCommandCorrected(c: Cog, authorChannel: string, content: string, query: string,
                                playAliases: set<string>, o: Oracles): (r: Cog)
    ensures !CheckSelfBot(c, authorChannel, content, playAliases) ==> r == c
    ensures c.vc != Unset && SameChannelWhilePlaying(c, authorChannel) ==> r == Play(c, query, authorChannel, o)
  {
    if CheckSelfBot(c, authorChannel, content, playAliases) then Play(c, query, authorChannel, o) else c
  }

  /** With the corrected guard, the first request to a fresh bot is admitted and starts the
      song. */
  lemma FirstPlayStarts(authorChannel: string, args: string, query: string, playAliases: set<string>, o: Oracles)
    requires !Contains(query, "list") && o.search(query).Some?
    requires o.connectOk(authorChannel) && o.playOk(o.search(query).value.source)
    ensures PlayCommandCorrected(Initial(), authorChannel, "/play " + args, query, playAliases, o).isPlaying
  {
    CheckSelfBotNames(Initial(), authorChannel, "play", args, playAliases);
    assert [Prefix] + "play" + " " + args == "/play " + args;
    PlayFromFresh(query, authorChannel, o);
  }
}

=== FILE: paging.dfy ===
/** Paged displays: the four navigation buttons and the "current/total" footer shared by the
    queue listing and the story pages. */
module Paging {
  import opened Wrappers
  import opened Text
  import opened Durations

  /** An embed field holds fewer than this many characters. */
  const FieldLimit: nat := 1024

  /** Every page is non-empty and fits in an embed field. */
  predicate PagesFit(pages: seq<string>) {
    forall i :: 0 <= i < |pages| ==> 0 < |pages[i]| < FieldLimit
  }

  /** The pages after a round of a page-filling loop that may have sealed a page. */
  function Emit(pages: seq<string>, sealed: Option<string>): (r: seq<string>)
    ensures Concat(r) == Concat(pages) + (if sealed.Some? then sealed.value else "")
  {
    ConcatAppend(pages, if sealed.Some? then sealed.value else "");
    if sealed.Some? then pages + [sealed.value] else pages
  }

  /** The reactions a paged message offers: skip to start, previous, next, skip to end. */
  datatype Button = First | Prev | Next | Last

  /** The page index after one press on page `cur` of `n`: previous and next stop at the
      ends instead of wrapping. */
  function Press(cur: nat, n: nat, b: Button): (r: nat)
    requires cur < n
    ensures r < n
    ensures b == First ==> r == 0
    ensures b == Prev ==> r == if cur > 0 then cur - 1 else 0
    ensures b == Next ==> r == if cur + 1 < n then cur + 1 else n - 1
    ensures b == Last ==> r == n - 1
  {
    match b
    case First => 0
    case Prev => if cur > 0 then cur - 1 else cur
    case Next => if cur < n - 1 then cur + 1 else cur
    case Last => n - 1
  }

  /** The page reached from `cur` by pressing the buttons in order, each press applied to
      the page the earlier ones reached. */
  function PressAll(cur: nat, n: nat, buttons: seq<Button>): (r: nat)
    requires cur < n
    ensures r < n
    decreases |buttons|
  {
    if |buttons| == 0 then cur
    else Press(PressAll(cur, n, buttons[..|buttons| - 1]), n, buttons[|buttons| - 1])
  }

  /** Pressing one button and then the rest is pressing them all. */
  lemma {:induction false} PressAllFirst(cur: nat, n: nat, b: Button, buttons: seq<Button>)
    requires cur < n
    ensures PressAll(cur, n, [b] + buttons) == PressAll(Press(cur, n, b), n, buttons)
    decreases |buttons|
  {
    var bs := [b] + buttons;
    if |buttons| > 0 {
      var init := buttons[..|buttons| - 1];
      assert bs[..|bs| - 1] == [b] + init;
      assert bs[|bs| - 1] == buttons[|buttons| - 1];
      PressAllFirst(cur, n, b, init);
    } else {
      assert bs[..0] == [];
    }
  }

  /** A session of presses starting on page `cur`: the final page and the pages re-rendered
      on the way, one per press that changed the page. */
  function Navigate(cur: nat, n: nat, buttons: seq<Button>): (r: (nat, seq<nat>))
    requires cur < n
    ensures r.0 == PressAll(cur, n, buttons)
    ensures |buttons| > 0 && Press(cur, n, buttons[0]) != cur ==> |r.1| > 0 && r.1[0] == Press(cur, n, buttons[0])
    ensures r.0 < n
    ensures forall i :: 0 <= i < |r.1| ==> r.1[i] < n
    ensures |r.1| <= |buttons|
    ensures |r.1| == 0 ==> r.0 == cur
    ensures |r.1| > 0 ==> r.1[0] != cur && r.1[|r.1| - 1] == r.0
    ensures forall i :: 0 < i < |r.1| ==> r.1[i] != r.1[i - 1]
    decreases |buttons|
  {
    if |buttons| == 0 then (cur, [])
    else
      var next := Press(cur, n, buttons[0]);
      var (final, renders) := Navigate(next, n, buttons[1..]);
      assert buttons == [buttons[0]] + buttons[1..];
      PressAllFirst(cur, n, buttons[0], buttons[1..]);
      if next != cur then (final, [next] + renders) else (final, renders)
  }

  /** The pages a paged message shows, in order: the first page, then the page after each
      press that changed it. */
  function Shown(n: nat, buttons: seq<Button>): (r: seq<nat>)
    requires n > 0
    ensures |r| >= 1 && r[0] == 0
    ensures forall i :: 0 <= i < |r| ==> r[i] < n
    ensures forall i :: 0 < i < |r| ==> r[i] != r[i - 1]
    ensures r[|r| - 1] == PressAll(0, n, buttons)
    ensures |buttons| > 0 && Press(0, n, buttons[0]) != 0 ==> |r| > 1 && r[1] == Press(0, n, buttons[0])
    ensures |r| <= |buttons| + 1
  {
    [0] + Navigate(0, n, buttons).1
  }

  /** `k` presses of next. */
  function Nexts(k: nat): (r: seq<Button>)
    ensures |r| == k
  {
    if k == 0 then [] else [Next] + Nexts(k - 1)
  }

  /** Pressing next `k` times from page `cur` reaches page `min(cur + k, n - 1)`. */
  lemma {:induction false} NextRepeated(n: nat, cur: nat, k: nat)
    requires cur < n
    ensures Navigate(cur, n, Nexts(k)).0 == if cur + k < n then cur + k else n - 1
    decreases k
  {
    if k > 0 {
      var bs := Nexts(k);
      assert bs[0] == Next && bs[1..] == Nexts(k - 1);
      var next := Press(cur, n, Next);
      NextRepeated(n, next, k - 1);
      assert Navigate(cur, n, bs).0 == Navigate(next, n, Nexts(k - 1)).0;
    } else {
      assert Navigate(cur, n, []) == (cur, []);
    }
  }

  /** Away from the last page, previous undoes next; away from the first, next undoes
      previous. Skipping to either end twice is skipping once. */
  lemma PressInverses(cur: nat, n: nat)
    requires cur < n
    ensures cur + 1 < n ==> Press(Press(cur, n, Next), n, Prev) == cur
    ensures cur > 0 ==> Press(Press(cur, n, Prev), n, Next) == cur
    ensures Press(Press(cur, n, First), n, First) == Press(cur, n, First)
    ensures Press(Press(cur, n, Last), n, Last) == Press(cur, n, Last)
  {
  }

  /** The footer of page `cur` of `n`: `<caption> <cur + 1>/<n>`. */
  function Footer(caption: string, cur: nat, n: nat): string {
    caption + " " + NatToString(cur + 1) + "/" + NatToString(n)
  }

  /** Reading the page back from a footer whose caption has `width` characters: the run of
      digits after the caption and its space, less one. */
  function FooterPage(footer: string, width: nat): int {
    if |footer| <= width + 1 then -1
    else
      var rest := footer[width + 1..];
      DigitsValue(rest[..DigitRun(rest)]) - 1
  }

  /** A footer reads back as the page it was made for. */
  lemma FooterRoundTrip(caption: string, cur: nat, n: nat)
    ensures FooterPage(Footer(caption, cur, n), |caption|) == cur
  {
    var d := NatToString(cur + 1);
    var f := Footer(caption, cur, n);
    assert f == (caption + " ") + (d + ['/'] + NatToString(n));
    var rest := f[|caption| + 1..];
    assert rest == d + ['/'] + NatToString(n);
    DigitRunOf(d, '/', NatToString(n));
    assert rest[..|d|] == d;
  }

  /** Different pages of one display never show the same footer. */
  lemma FooterDistinct(caption: string, c1: nat, c2: nat, n: nat)
    ensures Footer(caption, c1, n) == Footer(caption, c2, n) ==> c1 == c2
  {
    FooterRoundTrip(caption, c1, n);
    FooterRoundTrip(caption, c2, n);
  }
}

=== FILE: playback.dfy ===
/** Joining a voice channel, enqueueing songs and advancing playback: the parts of the current
    music cog and its service that drive the stream. The extractor, the voice client's `play`
    and its `connect` are oracles. */
module Playback {
  import opened Wrappers
  import opened Songs
  import opened SongCache
  import opened Queries
  import opened Session

  // ---------------------------------------------------------------------------------------
  // try_to_connect

  /** What `try_to_connect` does with the voice client. */
  datatype ConnectAction = Stay | Join(channel: string) | Switch(channel: string)

  /** The decision `try_to_connect` takes. With a target channel: join when there is no
      client, switch when a connected client sits on a channel of another name, else stay
      (a client that is no longer connected is left alone). Without a target (auto mode) and
      without a client: join the channel pinned on the head entry, or stay when nothing is
      queued; without a target but with a client the attempt fails and nothing happens. */
  function ConnectDecision(voice: Option<VoiceClient>, target: Option<string>, queue: seq<Entry>): (a: ConnectAction)
    ensures a.Join? ==> voice.None?
    ensures a.Join? && target.Some? ==> a.channel == target.value
    ensures a.Join? && target.None? ==> |queue| > 0 && a.channel == queue[0].channel
    ensures a.Switch? ==>
      && voice.Some? && voice.value.connected && target == Some(a.channel)
      && voice.value.channel != a.channel
    ensures target.Some? ==>
      (a.Stay? <==> voice.Some? && (voice.value.connected ==> voice.value.channel == target.value))
    ensures target.None? ==> (a.Stay? <==> voice.Some? || |queue| == 0)
  {
    if target.None? && voice.None? then
      if |queue| == 0 then Stay else Join(queue[0].channel)
    else if target.None? then Stay
    else if voice.None? then Join(target.value)
    else if voice.value.connected && voice.value.channel != target.value then Switch(target.value)
    else Stay
  }

  /** `try_to_connect`: carry out the decision; `connectOk` says whether connecting to a
      channel succeeds. A failed switch leaves the old client behind, disconnected. */
  function TryToConnect(s: Session, target: Option<string>, connectOk: string -> bool): (r: Session)
    ensures r.(voice := s.voice) == s
    ensures target.Some? && connectOk(target.value) && (s.voice.None? || s.voice.value.connected) ==>
      r.voice == Some(VoiceClient(target.value, true))
    ensures target.Some? && !connectOk(target.value) && s.voice.None? ==> r.voice.None?
    ensures s.voice.Some? && !s.voice.value.connected ==> r == s
    ensures ConnectDecision(s.voice, target, s.queue).Stay? ==> r == s
    ensures var a := ConnectDecision(s.voice, target, s.queue);
      a.Join? ==> r.voice == if connectOk(a.channel) then Some(VoiceClient(a.channel, true)) else None
    ensures ConnectDecision(s.voice, target, s.queue).Switch? && !connectOk(target.value) ==>
      r.voice == Some(VoiceClient(s.voice.value.channel, false))
  {
    match ConnectDecision(s.voice, target, s.queue)
    case Stay => s
    case Join(c) => if connectOk(c) then s.(voice := Some(VoiceClient(c, true))) else s
    case Switch(c) =>
      s.(voice := Some(if connectOk(c) then VoiceClient(c, true) else VoiceClient(s.voice.value.channel, false)))
  }

  /** Asking twice is asking once: whatever the first attempt left behind, the second one
      does nothing observable. */
  lemma TryToConnectIdempotent(s: Session, target: Option<string>, connectOk: string -> bool)
    ensures TryToConnect(TryToConnect(s, target, connectOk), target, connectOk) == TryToConnect(s, target, connectOk)
  {
  }

  // ---------------------------------------------------------------------------------------
  // reproduce_next_song_in_queue

  /** The outside world playback consults: the extractor (`search_youtube_url(url, author)`),
      whether the voice client accepts a stream source, and whether connecting succeeds. */
  datatype Oracles = Oracles(
    resolve: (string, string) -> Option<Song>,
    playOk: string -> bool,
    connectOk: string -> bool)

  /** The session after an advance, and the source it started streaming, if any. */
  datatype Advanced = Advanced(session: Session, stream: Option<string>)

  /** The queue an advance starts from: the shuffled order replaces the base queue wholesale
      when one is pending, whatever was appended to the base queue since. */
  function Adopt(s: Session): (r: Session)
    ensures !r.isShuffled
    ensures r.queue == if s.isShuffled then s.shuffled else s.queue
    ensures r.(queue := s.queue, isShuffled := s.isShuffled) == s
  {
    if s.isShuffled then s.(queue := s.shuffled, isShuffled := false) else s
  }

  /** What the head entry yields: the freshly resolved song when it had no source (absent
      when resolution failed), and the source to stream ("" when there is none). */
  function Lookup(e: Entry, resolve: (string, string) -> Option<Song>): (r: (Option<Song>, string))
    ensures e.song.source != "" ==> r == (None, e.song.source)
    ensures e.song.source == "" && r.0.Some? ==> r.1 == r.0.value.source
    ensures r.0.None? && e.song.source == "" ==> r.1 == ""
  {
    if e.song.source == "" then
      match resolve(e.song.url, e.song.author)
      case Some(info) => (Some(info), info.source)
      case None => (None, "")
    else (None, e.song.source)
  }

  /** The song `now_playing` shows for an entry: the resolved one when resolution ran. */
  function Current(e: Entry, resolve: (string, string) -> Option<Song>): Song {
    var (info, _) := Lookup(e, resolve);
    if info.Some? then info.value else e.song
  }

  /** Starting a stream works: a non-empty source, a connected client, and a `play` that does
      not raise. */
  predicate Streams(voice: Option<VoiceClient>, source: string, playOk: string -> bool) {
    source != "" && voice.Some? && voice.value.connected && playOk(source)
  }

  /** An entry the advance would start streaming. */
  predicate Playable(e: Entry, voice: Option<VoiceClient>, o: Oracles) {
    Streams(voice, Lookup(e, o.resolve).1, o.playOk)
  }

  /** `now_playing.pop()` when non-empty, then `now_playing.append(song)`. */
  function ReplaceLast(np: seq<Song>, song: Song): (r: seq<Song>)
    ensures |r| == if |np| > 0 then |np| else 1
    ensures r[|r| - 1] == song
  {
    (if |np| > 0 then np[..|np| - 1] else []) + [song]
  }

  /** Measure for the advance: the queue, plus the pending shuffled order while it is still
      to be adopted. */
  function Pending(s: Session): nat {
    |s.queue| + if s.isShuffled then |s.shuffled| + 1 else 0
  }

  /** One round of the advance on a non-empty queue: the head comes off into `now_playing`
      and `is_playing` is set; nothing else changes. */
  function TakeHead(a: Session, o: Oracles): (n: Session)
    requires |a.queue| > 0
    ensures n.queue == a.queue[1..] && n.isPlaying
    ensures n.nowPlaying == ReplaceLast(a.nowPlaying, Current(a.queue[0], o.resolve))
    ensures n.(queue := a.queue, nowPlaying := a.nowPlaying, isPlaying := a.isPlaying) == a
  {
    a.(queue := a.queue[1..], nowPlaying := ReplaceLast(a.nowPlaying, Current(a.queue[0], o.resolve)), isPlaying := true)
  }

  /** `reproduce_next_song_in_queue`. An empty queue stops playback. Otherwise a pending
      shuffled order is adopted, the head is taken off (resolved first when it has no source)
      into `now_playing`, and its stream started; when there is no source or `play` raises,
      the same happens to the next entry. After adopting an empty shuffled order the head
      lookup raises, which is caught and stops playback. Each round takes an entry off, so the
      recursion ends. */
  function Advance(s: Session, o: Oracles): (r: Advanced)
    ensures r.session.isPlaying <==> r.stream.Some?
    ensures r.stream.Some? ==> Streams(s.voice, r.stream.value, o.playOk)
    ensures |s.queue| == 0 ==> r == Advanced(s.(isPlaying := false), None)
    ensures |s.queue| > 0 ==> !r.session.isShuffled
    ensures r.session.voice == s.voice && r.session.store == s.store && r.session.isPaused == s.isPaused
    // Adopting makes the base queue and the shuffled order one list in the cog, so its pops
    // shorten both; the copy kept here is never read again, since the flag is cleared and
    // `shuffle` assigns a fresh list.
    ensures r.session.shuffled == s.shuffled
    ensures |s.queue| > 0 && |Adopt(s).queue| > 0 ==> |r.session.nowPlaying| > 0
    decreases Pending(s)
  {
    if |s.queue| == 0 then Advanced(s.(isPlaying := false), None)
    else
      var a := Adopt(s);
      if |a.queue| == 0 then Advanced(a.(isPlaying := false), None)
      else
        var next := TakeHead(a, o);
        if Playable(a.queue[0], a.voice, o) then Advanced(next, Some(Lookup(a.queue[0], o.resolve).1))
        else Advance(next, o)
  }

  /** Every advance of a non-empty queue takes at least one entry off the head of the
      adopted queue and keeps the rest in order. */
  lemma {:induction false} AdvanceShrinks(s: Session, o: Oracles)
    requires |s.queue| > 0
    ensures var q := Adopt(s).queue;
      var r := Advance(s, o);
      && |r.session.queue| < |q| + (if |q| == 0 then 1 else 0)
      && r.session.queue == q[|q| - |r.session.queue|..]
    decreases Pending(s)
  {
    var a := Adopt(s);
    var r := Advance(s, o);
    if |a.queue| == 0 {
      assert r.session.queue == [];
    } else {
      var next := TakeHead(a, o);
      if Playable(a.queue[0], a.voice, o) {
        assert r.session.queue == a.queue[1..];
      } else {
        assert r == Advance(next, o);
        if |next.queue| > 0 {
          AdvanceShrinks(next, o);
          assert Adopt(next) == next;
          assert next.queue[|next.queue| - |r.session.queue|..] == a.queue[|a.queue| - |r.session.queue|..];
        } else {
          assert r.session.queue == [];
        }
      }
    }
  }

  /** An advance that takes an entry off leaves exactly one song showing, when at most one was
      showing before. */
  lemma {:induction false} AdvanceShowsOne(s: Session, o: Oracles)
    requires |s.queue| > 0 && |Adopt(s).queue| > 0 && |s.nowPlaying| <= 1
    ensures |Advance(s, o).session.nowPlaying| == 1
    decreases Pending(s)
  {
    var a := Adopt(s);
    var next := TakeHead(a, o);
    if !Playable(a.queue[0], a.voice, o) {
      assert Advance(s, o) == Advance(next, o);
      if |next.queue| > 0 {
        assert Adopt(next) == next;
        AdvanceShowsOne(next, o);
      }
    }
  }

  /** Reference definition: the position of the first entry whose stream would start. */
  function FirstPlayable(q: seq<Entry>, voice: Option<VoiceClient>, o: Oracles): (k: Option<nat>)
    ensures k.Some? ==> k.value < |q| && Playable(q[k.value], voice, o)
    ensures k.Some? ==> forall j :: 0 <= j < k.value ==> !Playable(q[j], voice, o)
    ensures k.None? ==> forall j :: 0 <= j < |q| ==> !Playable(q[j], voice, o)
    decreases |q|
  {
    if |q| == 0 then None
    else if Playable(q[0], voice, o) then Some(0)
    else match FirstPlayable(q[1..], voice, o)
      case None => None
      case Some(k) => Some(k + 1)
  }

  /** Advancing from a non-shuffled, non-empty queue skips exactly the entries before the
      first playable one, streams that one and leaves the rest queued; when none is playable
      the queue is used up and playback stops with the last entry shown as current. */
  lemma {:induction false} AdvanceSkipsToFirstPlayable(s: Session, o: Oracles)
    requires !s.isShuffled && |s.queue| > 0
    ensures var r := Advance(s, o);
      match FirstPlayable(s.queue, s.voice, o)
      case Some(k) =>
        && r.session.queue == s.queue[k + 1..]
        && r.stream == Some(Lookup(s.queue[k], o.resolve).1)
        && r.session.isPlaying
        && r.session.nowPlaying[|r.session.nowPlaying| - 1] == Current(s.queue[k], o.resolve)
      case None =>
        && r.session.queue == []
        && r.stream.None? && !r.session.isPlaying
        && r.session.nowPlaying[|r.session.nowPlaying| - 1] == Current(s.queue[|s.queue| - 1], o.resolve)
    decreases |s.queue|
  {
    var head := s.queue[0];
    assert Adopt(s) == s;
    var next := TakeHead(s, o);
    if Playable(head, s.voice, o) {
      assert FirstPlayable(s.queue, s.voice, o) == Some(0);
    } else if |next.queue| == 0 {
      assert Advance(s, o) == Advance(next, o);
      assert FirstPlayable(s.queue[1..], s.voice, o) == None;
    } else {
      assert Advance(s, o) == Advance(next, o);
      AdvanceSkipsToFirstPlayable(next, o);
      match FirstPlayable(next.queue, s.voice, o)
      case Some(k) =>
        assert FirstPlayable(s.queue, s.voice, o) == Some(k + 1);
        assert next.queue[k + 1..] == s.queue[k + 2..];
      case None =>
        assert FirstPlayable(s.queue, s.voice, o) == None;
    }
  }

  /** Songs appended to the base queue while a shuffled order is pending are lost at the next
      advance: it starts from the shuffled order alone. */
  lemma AppendAfterShuffleIsLost(s: Session, e: Entry, o: Oracles)
    requires s.isShuffled && |s.queue| > 0
    ensures Advance(s.(queue := s.queue + [e]), o) == Advance(s, o)
  {
    assert Adopt(s.(queue := s.queue + [e])) == Adopt(s);
  }

  /** Two queued songs with working sources: the first advance shows A and leaves B queued,
      the completion of A shows B and empties the queue, and the completion of B stops
      playback. */
  lemma AdvanceScenario(s: Session, a: Entry, b: Entry, o: Oracles)
    requires s.queue == [a, b] && !s.isShuffled && |s.nowPlaying| <= 1
    requires s.voice.Some? && s.voice.value.connected
    requires a.song.source != "" && o.playOk(a.song.source)
    requires b.song.source != "" && o.playOk(b.song.source)
    ensures var r1 := Advance(s, o);
      && r1.session.nowPlaying == [a.song] && r1.session.queue == [b] && r1.stream == Some(a.song.source)
      && var r2 := Advance(r1.session, o);
      && r2.session.nowPlaying == [b.song] && r2.session.queue == [] && r2.stream == Some(b.song.source)
      && var r3 := Advance(r2.session, o);
      && !r3.session.isPlaying && r3.stream.None? && r3.session.nowPlaying == [b.song]
  {
    var r1 := Advance(s, o);
    assert Adopt(s) == s;
    assert s.queue[1..] == [b];
    assert r1.session.nowPlaying == ReplaceLast(s.nowPlaying, a.song);
    assert |r1.session.nowPlaying| == 1;
    var r2 := Advance(r1.session, o);
    assert Adopt(r1.session) == r1.session;
    assert r2.session.nowPlaying == ReplaceLast(r1.session.nowPlaying, b.song);
  }

  // ---------------------------------------------------------------------------------------
  // play and play_next

  /** Songs pinned to the channel their requester was in, as queue entries. */
  function Pin(songs: seq<Song>, channel: string): (r: seq<Entry>)
    ensures |r| == |songs|
    ensures forall i :: 0 <= i < |songs| ==> r[i] == Entry(songs[i], channel)
  {
    seq(|songs|, i requires 0 <= i < |songs| => Entry(songs[i], channel))
  }

  lemma PinSplit(songs: seq<Song>, k: nat, channel: string)
    requires k <= |songs|
    ensures Pin(songs[..k], channel) + Pin(songs[k..], channel) == Pin(songs, channel)
  {
  }

  /** Appending the first two songs and then the rest appends them all. */
  lemma EnqueueInTwo(queue: seq<Entry>, songs: seq<Song>, channel: string)
    requires |songs| >= 2
    ensures queue + Pin(songs[..2], channel) + Pin(songs[2..], channel) == queue + Pin(songs, channel)
  {
    PinSplit(songs, 2, channel);
    assert queue + Pin(songs[..2], channel) + Pin(songs[2..], channel) == queue + (Pin(songs[..2], channel) + Pin(songs[2..], channel));
  }

  /** The guard in front of every advance a command starts: only when neither playing nor
      paused, connect to the requester's channel and advance. */
  function StartIfIdle(s: Session, channel: string, o: Oracles): (r: Advanced)
    ensures s.isPlaying || s.isPaused ==> r == Advanced(s, None)
    ensures r.session.store == s.store && r.session.isPaused == s.isPaused
  {
    if !s.isPlaying && !s.isPaused then Advance(TryToConnect(s, Some(channel), o.connectOk), o)
    else Advanced(s, None)
  }

  /** An advance that is already streaming is never started a second time by a command. */
  lemma StartIfIdleSingleStream(s: Session, channel: string, o: Oracles)
    ensures var r := StartIfIdle(s, channel, o);
      r.stream.Some? ==> StartIfIdle(r.session, channel, o) == Advanced(r.session, None)
  {
  }

  /** The playlist branch of `play`: the entries are appended one by one, and right after
      the second one an idle session is started. */
  function EnqueuePlaylist(s: Session, songs: seq<Song>, channel: string, o: Oracles): (r: Session)
    ensures (s.isPlaying || s.isPaused) ==> r == s.(queue := s.queue + Pin(songs, channel))
    ensures r.store == s.store && r.isPaused == s.isPaused
  {
    if |songs| < 2 then s.(queue := s.queue + Pin(songs, channel))
    else
      var s1 := s.(queue := s.queue + Pin(songs[..2], channel));
      var s2 := StartIfIdle(s1, channel, o).session;
      EnqueueInTwo(s.queue, songs, channel);
      s2.(queue := s2.queue + Pin(songs[2..], channel))
  }

  /** The `play` command after its guards. The query is cleaned; a playlist url is expanded
      (`ids` are the video ids its listing returned, `fetch` the video API) and its songs
      appended in order, a url that says "list" without "list=" raises and changes nothing;
      anything else is resolved, saved and appended. Every appended entry is pinned to the
      requester's channel. Finally an idle session is connected and advanced. */
  function Play(s: Session, query: string, author: string, nick: string, channel: string,
                isUrl: string -> bool, ids: seq<string>, fetch: string -> Fetch, o: Oracles): (r: Session)
    ensures r.isPaused == s.isPaused
    ensures IsPlaylist(Sanitize(query, isUrl), isUrl) && PlaylistId(Sanitize(query, isUrl)).None? ==> r == s
    ensures (s.isPlaying || s.isPaused) && IsPlaylist(Sanitize(query, isUrl), isUrl) && PlaylistId(Sanitize(query, isUrl)).Some? ==>
      var e := ExpandPlaylist(s.store, nick, ids, fetch);
      r == s.(store := e.store, queue := s.queue + Pin(e.songs, channel))
    ensures (s.isPlaying || s.isPaused) && !IsPlaylist(Sanitize(query, isUrl), isUrl) ==>
      match o.resolve(Sanitize(query, isUrl), author)
      case None => r == s
      case Some(song) =>
        r == s.(store := SaveSong(s.store, song.url, song.title, song.duration, song.thumbnail),
                queue := s.queue + [Entry(song, channel)])
  {
    var q := Sanitize(query, isUrl);
    if IsPlaylist(q, isUrl) then
      if PlaylistId(q).None? then s
      else
        var e := ExpandPlaylist(s.store, nick, ids, fetch);
        StartIfIdle(EnqueuePlaylist(s.(store := e.store), e.songs, channel, o), channel, o).session
    else
      match o.resolve(q, author)
      case None => StartIfIdle(s, channel, o).session
      case Some(song) =>
        var s1 := s.(store := SaveSong(s.store, song.url, song.title, song.duration, song.thumbnail),
                     queue := s.queue + [Entry(song, channel)]);
        StartIfIdle(s1, channel, o).session
  }

  /** `play` on an idle, empty, unshuffled session with a song whose source streams: the bot
      joins the requester's channel and the song becomes the current one, leaving the queue
      empty. */
  lemma PlayFromIdle(s: Session, query: string, author: string, nick: string, channel: string,
                     isUrl: string -> bool, ids: seq<string>, fetch: string -> Fetch, o: Oracles, song: Song)
    requires !s.isPlaying && !s.isPaused && !s.isShuffled && s.queue == [] && |s.nowPlaying| <= 1
    requires s.voice.None? && o.connectOk(channel)
    requires !IsPlaylist(Sanitize(query, isUrl), isUrl)
    requires o.resolve(Sanitize(query, isUrl), author) == Some(song)
    requires song.source != "" && o.playOk(song.source)
    ensures var r := Play(s, query, author, nick, channel, isUrl, ids, fetch, o);
      && r.isPlaying && r.queue == [] && r.nowPlaying == [song]
      && r.voice == Some(VoiceClient(channel, true))
  {
    var s1 := s.(store := SaveSong(s.store, song.url, song.title, song.duration, song.thumbnail),
                 queue := [Entry(song, channel)]);
    assert s.queue + [Entry(song, channel)] == [Entry(song, channel)];
    var c := TryToConnect(s1, Some(channel), o.connectOk);
    assert c.voice == Some(VoiceClient(channel, true));
    assert Adopt(c) == c;
    assert Lookup(Entry(song, channel), o.resolve) == (None, song.source);
    assert Advance(c, o).session.nowPlaying == ReplaceLast(s.nowPlaying, song);
  }

  /** `a` is what remains of `b` after some entries came off its head. */
  predicate Suffix(a: seq<Entry>, b: seq<Entry>) {
    |a| <= |b| && a == b[|b| - |a|..]
  }

  /** After `TryToConnect` towards a channel, a connected client is on that channel. */
  lemma ConnectedOnTarget(s: Session, channel: string, connectOk: string -> bool)
    ensures var v := TryToConnect(s, Some(channel), connectOk).voice;
      v.Some? && v.value.connected ==> v.value == VoiceClient(channel, true)
  {
  }

  /** Starting an idle session with no shuffle pending: entries come off the head of the
      queue (at least one when there was any), and then either a stream runs on a client in
      the requester's channel or the queue is used up. */
  lemma StartIdle(s: Session, channel: string, o: Oracles)
    requires !s.isPlaying && !s.isPaused && !s.isShuffled
    ensures var r := StartIfIdle(s, channel, o).session;
      && Suffix(r.queue, s.queue) && (|s.queue| > 0 ==> |r.queue| < |s.queue|)
      && (r.isPlaying ==> r.voice == Some(VoiceClient(channel, true)))
      && (!r.isPlaying ==> r.queue == [])
      && !r.isShuffled && !r.isPaused
  {
    var c := TryToConnect(s, Some(channel), o.connectOk);
    ConnectedOnTarget(s, channel, o.connectOk);
    if |c.queue| > 0 {
      assert Adopt(c) == c;
      AdvanceShrinks(c, o);
      AdvanceSkipsToFirstPlayable(c, o);
    }
  }

  /** The entries a `play` request appends: the expanded playlist, or the resolved song,
      pinned to the requester's channel; nothing when resolution fails or the playlist url
      has no "list=". */
  function Requested(s: Session, query: string, author: string, nick: string, channel: string,
                     isUrl: string -> bool, ids: seq<string>, fetch: string -> Fetch, o: Oracles): (r: seq<Entry>)
    ensures forall i :: 0 <= i < |r| ==> r[i].channel == channel
  {
    var q := Sanitize(query, isUrl);
    if IsPlaylist(q, isUrl) then
      if PlaylistId(q).None? then [] else Pin(ExpandPlaylist(s.store, nick, ids, fetch).songs, channel)
    else
      match o.resolve(q, author)
      case None => []
      case Some(song) => [Entry(song, channel)]
  }

  /** The playlist branch on an idle session keeps the same shape: what is left queued is a
      tail of the old queue and all the songs, and the session either streams in the
      requester's channel or has used its queue up. */
  lemma EnqueuePlaylistIdle(s: Session, songs: seq<Song>, channel: string, o: Oracles)
    requires !s.isPlaying && !s.isPaused && !s.isShuffled
    ensures var q := s.queue + Pin(songs, channel);
      var r := StartIfIdle(EnqueuePlaylist(s, songs, channel, o), channel, o).session;
      && Suffix(r.queue, q) && (|q| > 0 ==> |r.queue| < |q|)
      && (r.isPlaying ==> r.voice == Some(VoiceClient(channel, true)))
      && (!r.isPlaying ==> r.queue == [])
  {
    if |songs| < 2 {
      StartIdle(s.(queue := s.queue + Pin(songs, channel)), channel, o);
    } else {
      EnqueueLongPlaylistIdle(s, songs, channel, o);
    }
  }

  /** The case of `EnqueuePlaylistIdle` with at least two songs, where the session is started
      in the middle of the loop and the rest appended after it. */
  lemma EnqueueLongPlaylistIdle(s: Session, songs: seq<Song>, channel: string, o: Oracles)
    requires !s.isPlaying && !s.isPaused && !s.isShuffled && |songs| >= 2
    ensures var q := s.queue + Pin(songs, channel);
      var r := StartIfIdle(EnqueuePlaylist(s, songs, channel, o), channel, o).session;
      && Suffix(r.queue, q) && (|q| > 0 ==> |r.queue| < |q|)
      && (r.isPlaying ==> r.voice == Some(VoiceClient(channel, true)))
      && (!r.isPlaying ==> r.queue == [])
  {
    var q := s.queue + Pin(songs, channel);
    var s1 := s.(queue := s.queue + Pin(songs[..2], channel));
    StartIdle(s1, channel, o);
    var s2 := StartIfIdle(s1, channel, o).session;
    var rest := Pin(songs[2..], channel);
    EnqueueInTwo(s.queue, songs, channel);
    var s3 := s2.(queue := s2.queue + rest);
    assert EnqueuePlaylist(s, songs, channel, o) == s3;
    SuffixAppend(s2.queue, s1.queue, rest);
    if !s2.isPlaying {
      StartIdle(s3, channel, o);
      SuffixTrans(StartIfIdle(s3, channel, o).session.queue, s3.queue, q);
    }
  }

  /** Appending the same entries keeps a tail a tail. */
  lemma SuffixAppend(a: seq<Entry>, b: seq<Entry>, rest: seq<Entry>)
    requires Suffix(a, b)
    ensures Suffix(a + rest, b + rest)
  {
    assert (b + rest)[|b + rest| - |a + rest|..] == b[|b| - |a|..] + rest;
  }

  /** A tail of a tail is a tail. */
  lemma SuffixTrans(a: seq<Entry>, b: seq<Entry>, c: seq<Entry>)
    requires Suffix(a, b) && Suffix(b, c)
    ensures Suffix(a, c)
  {
    assert c[|c| - |a|..] == c[|c| - |b|..][|b| - |a|..];
  }

  /** `play` on an idle session with no shuffle pending, for every request: unless the
      playlist url is refused, the requested entries are appended and playback started, so
      what is left queued is a tail of the old queue and the requested entries with at least
      one taken off, and the session either streams in the requester's channel or has used
      its queue up. */
  lemma PlayWhenIdle(s: Session, query: string, author: string, nick: string, channel: string,
                     isUrl: string -> bool, ids: seq<string>, fetch: string -> Fetch, o: Oracles)
    requires !s.isPlaying && !s.isPaused && !s.isShuffled
    ensures var q := s.queue + Requested(s, query, author, nick, channel, isUrl, ids, fetch, o);
      var r := Play(s, query, author, nick, channel, isUrl, ids, fetch, o);
      var refused := IsPlaylist(Sanitize(query, isUrl), isUrl) && PlaylistId(Sanitize(query, isUrl)).None?;
      && Suffix(r.queue, q)
      && (r.isPlaying ==> r.voice == Some(VoiceClient(channel, true)))
      && (!refused && |q| > 0 ==> |r.queue| < |q|)
      && (!refused ==> (r.isPlaying || r.queue == []))
  {
    var q := Sanitize(query, isUrl);
    if IsPlaylist(q, isUrl) {
      if PlaylistId(q).Some? {
        var e := ExpandPlaylist(s.store, nick, ids, fetch);
        EnqueuePlaylistIdle(s.(store := e.store), e.songs, channel, o);
      }
    } else {
      match o.resolve(q, author)
      case None =>
        StartIdle(s, channel, o);
      case Some(song) =>
        StartIdle(s.(store := SaveSong(s.store, song.url, song.title, song.duration, song.thumbnail),
                     queue := s.queue + [Entry(song, channel)]), channel, o);
    }
  }

  /** The `play_next` command after its guards. With songs queued: a playlist is refused,
      a failed resolution changes nothing, and a resolved song is saved and inserted at the
      head, pinned to the requester's channel; nothing is started. With an empty queue it is
      `play`. */
  function PlayNext(s: Session, query: string, author: string, nick: string, channel: string,
                    isUrl: string -> bool, ids: seq<string>, fetch: string -> Fetch, o: Oracles): (r: Session)
    ensures |s.queue| > 0 && IsPlaylist(Sanitize(query, isUrl), isUrl) ==> r == s
    ensures |s.queue| > 0 && !IsPlaylist(Sanitize(query, isUrl), isUrl) ==>
      match o.resolve(Sanitize(query, isUrl), author)
      case None => r == s
      case Some(song) =>
        && r.queue == [Entry(song, channel)] + s.queue
        && r == s.(store := SaveSong(s.store, song.url, song.title, song.duration, song.thumbnail), queue := r.queue)
    ensures |s.queue| == 0 ==> r == Play(s, query, author, nick, channel, isUrl, ids, fetch, o)
  {
    if |s.queue| > 0 then
      var q := Sanitize(query, isUrl);
      if IsPlaylist(q, isUrl) then s
      else
        match o.resolve(q, author)
        case None => s
        case Some(song) =>
          s.(store := SaveSong(s.store, song.url, song.title, song.duration, song.thumbnail),
             queue := [Entry(song, channel)] + s.queue)
    else Play(s, query, author, nick, channel, isUrl, ids, fetch, o)
  }
}

=== FILE: queries.dfy ===
/** Classifying and cleaning the text a user passes to `play`. */
module Queries {
  import opened Wrappers
  import opened Text

  /** `sanitize_youtube_query`: a url loses everything from its first "&t=" (the timestamp);
      anything else is returned as given. `isUrl` stands for the url validator. */
  function Sanitize(query: string, isUrl: string -> bool): (r: string)
    ensures |r| <= |query| && r == query[..|r|]
    ensures isUrl(query) && Contains(query, "&t=") ==> OccursAt(query, "&t=", |r|) && !Contains(r, "&t=")
    ensures !(isUrl(query) && Contains(query, "&t=")) ==> r == query
  {
    if isUrl(query) && Contains(query, "&t=") then BeforeFirst(query, "&t=") else query
  }

  /** Cleaning a cleaned query changes nothing. */
  lemma SanitizeIdempotent(query: string, isUrl: string -> bool)
    ensures Sanitize(Sanitize(query, isUrl), isUrl) == Sanitize(query, isUrl)
  {
  }

  /** `is_youtube_playlist`: a url that mentions "list" anywhere. */
  function IsPlaylist(query: string, isUrl: string -> bool): (b: bool)
    ensures b <==> isUrl(query) && exists k: nat :: OccursAt(query, "list", k)
  {
    isUrl(query) && Contains(query, "list")
  }

  /** `url.split("list=")[1]`: the text between the first "list=" and the next one; absent
      (Python raises `IndexError`) when the url says "list" but never "list=". */
  function PlaylistId(url: string): (r: Option<string>)
    ensures r.None? <==> !Contains(url, "list=")
    ensures r.Some? ==> exists k: nat ::
      && OccursAt(url, "list=", k) && (forall j :: 0 <= j < k ==> !OccursAt(url, "list=", j))
      && r.value == BeforeFirst(url[k + 5..], "list=")
  {
    var at := FindFrom(url, "list=", 0);
    if at.None? then None else Some(BeforeFirst(url[at.value + 5..], "list="))
  }
}

=== FILE: queueview.dfy ===
/** The `queue` command of the current music cog: the listing split greedily into embed
    fields of at most 1023 characters, the whole-queue summary, and paging through them. */
module QueueView {
  import opened Wrappers
  import opened Text
  import opened Songs
  import opened Durations
  import opened Session
  import opened Paging

  /** One listing row: "`n -` [title](url)|`h:mm:ss (author)`" and a newline. */
  function Row(n: nat, song: Song): string {
    "`" + NatToString(n) + " -` [" + song.title + "](" + song.url + ")|`" + ConvertSeconds(song.duration) + " (" + song.author + ")`\n"
  }

  /** The rows of a list, numbered from 1 in list order. */
  function Rows(list: seq<Entry>): (r: seq<string>)
    ensures |r| == |list|
    ensures forall i :: 0 <= i < |list| ==> r[i] == Row(i + 1, list[i].song)
  {
    seq(|list|, i requires 0 <= i < |list| => Row(i + 1, list[i].song))
  }

  /** The summed duration of the songs of a list. */
  function TotalDuration(list: seq<Entry>): nat
    decreases |list|
  {
    if |list| == 0 then 0 else TotalDuration(list[..|list| - 1]) + list[|list| - 1].song.duration
  }

  /** Where the page-filling loop stands: the next row to place and the page being filled. */
  datatype Fill = Fill(next: nat, page: string)

  /** One round of the page-filling loop. The candidate text is the page so far followed by
      the next row; when it stays under the field limit the row is placed (and the page is
      sealed when that was the last row), otherwise the page is sealed as it is and a new one
      started, the row still to be placed. */
  function FillStep(rows: seq<string>, f: Fill): (r: (Fill, Option<string>))
    requires f.next < |rows|
  {
    if |f.page| + |rows[f.next]| < FieldLimit then
      var f' := Fill(f.next + 1, f.page + rows[f.next]);
      (f', if f'.next == |rows| then Some(f'.page) else None)
    else (Fill(f.next, ""), Some(f.page))
  }

  /** A row that alone reaches the field limit is never placed: after at most one round the
      loop stands still on it, sealing an empty page every round. */
  lemma LongRowNeverPlaced(rows: seq<string>, f: Fill)
    requires f.next < |rows| && |rows[f.next]| >= FieldLimit
    ensures FillStep(rows, f) == (Fill(f.next, ""), Some(f.page))
    ensures FillStep(rows, Fill(f.next, "")) == (Fill(f.next, ""), Some(""))
  {
  }

  lemma ConcatPrefixLength(rows: seq<string>, k: nat)
    requires k <= |rows|
    ensures |Concat(rows[..k])| <= |Concat(rows)|
  {
    assert rows == rows[..k] + rows[k..];
    ConcatJoin(rows[..k], rows[k..]);
  }

  lemma TotalDurationAppend(list: seq<Entry>, k: nat)
    requires k < |list|
    ensures TotalDuration(list[..k + 1]) == TotalDuration(list[..k]) + list[k].song.duration
  {
    assert list[..k + 1][..k] == list[..k];
  }

  /** What the page-filling loop keeps: sealed pages are non-empty and fit; the sealed pages
      and the open page together are the rows placed so far (after the last row, the last
      sealed page is the open one); and while the whole listing would fit in one field
      nothing is sealed before the end. */
  ghost predicate Filled(rows: seq<string>, k: nat, page: string, pages: seq<string>) {
    && k <= |rows|
    && |page| < FieldLimit
    && PagesFit(pages)
    && (if k == |rows| && |rows| > 0
        then Concat(pages) == Concat(rows) && |pages| > 0 && pages[|pages| - 1] == page
        else Concat(pages) + page == Concat(rows[..k]))
    && (|Concat(rows)| < FieldLimit ==> |pages| == if k == |rows| && k > 0 then 1 else 0)
  }

  /** A placing round keeps the loop's invariant. */
  lemma PlaceKeeps(rows: seq<string>, k: nat, page: string, pages: seq<string>)
    requires PagesFit(rows) && k < |rows| && Filled(rows, k, page, pages)
    requires |page| + |rows[k]| < FieldLimit
    ensures Filled(rows, k + 1, page + rows[k], Emit(pages, FillStep(rows, Fill(k, page)).1))
  {
    assert rows[..k + 1] == rows[..k] + [rows[k]];
    ConcatAppend(rows[..k], rows[k]);
    var page' := page + rows[k];
    assert Concat(pages) + page' == Concat(rows[..k + 1]);
    if k + 1 == |rows| {
      assert rows[..k + 1] == rows;
      ConcatAppend(pages, page');
    }
  }

  /** A sealing round keeps the loop's invariant and shortens the open page. */
  lemma SealKeeps(rows: seq<string>, k: nat, page: string, pages: seq<string>)
    requires PagesFit(rows) && k < |rows| && Filled(rows, k, page, pages)
    requires |page| + |rows[k]| >= FieldLimit
    ensures Filled(rows, k, "", pages + [page]) && |page| > 0
  {
    ConcatAppend(pages, page);
    assert rows[..k + 1] == rows[..k] + [rows[k]];
    ConcatAppend(rows[..k], rows[k]);
    ConcatPrefixLength(rows, k + 1);
  }

  /** Page `i` is rows `cuts[i]` up to `cuts[i + 1]`, not empty; and when a row follows it,
      the page was sealed only because that row would have taken it to the field limit. */
  predicate CutPage(rows: seq<string>, cuts: seq<nat>, pages: seq<string>, i: nat)
    requires i < |pages| && |cuts| == |pages| + 1
  {
    && cuts[i] < cuts[i + 1] <= |rows|
    && pages[i] == Concat(rows[cuts[i]..cuts[i + 1]])
    && (cuts[i + 1] < |rows| ==> |pages[i]| + |rows[cuts[i + 1]]| >= FieldLimit)
  }

  /** `cuts` splits `rows` into `pages` at row boundaries, starting from the first row. */
  predicate CutAtRows(rows: seq<string>, cuts: seq<nat>, pages: seq<string>) {
    && |cuts| == |pages| + 1 && cuts[0] == 0
    && (forall i :: 0 <= i < |pages| ==> CutPage(rows, cuts, pages, i))
  }

  /** The greedy cut of all the rows: every row lands on a page, in order, no row is split,
      and a page is sealed only when the next row no longer fits on it. */
  predicate Greedy(rows: seq<string>, cuts: seq<nat>, pages: seq<string>) {
    CutAtRows(rows, cuts, pages) && cuts[|pages|] == |rows|
  }

  /** The cut points of the page-filling loop so far: the sealed pages are cut at row
      boundaries, and the open page holds the rows from the last cut up to `k` (after the last
      row, the last cut is the end). */
  ghost predicate CutSoFar(rows: seq<string>, k: nat, page: string, pages: seq<string>, cuts: seq<nat>) {
    && k <= |rows|
    && CutAtRows(rows, cuts, pages)
    && (if k == |rows| && |rows| > 0 then cuts[|pages|] == |rows|
        else cuts[|pages|] <= k && page == Concat(rows[cuts[|pages|]..k]))
  }

  /** Sealing one more page, from the last cut up to `e`, keeps the pages cut at rows. */
  lemma CutAppend(rows: seq<string>, cuts: seq<nat>, pages: seq<string>, e: nat, p: string)
    requires CutAtRows(rows, cuts, pages)
    requires cuts[|pages|] < e <= |rows| && p == Concat(rows[cuts[|pages|]..e])
    requires e < |rows| ==> |p| + |rows[e]| >= FieldLimit
    ensures CutAtRows(rows, cuts + [e], pages + [p])
  {
    var cuts', pages' := cuts + [e], pages + [p];
    forall i | 0 <= i < |pages'|
      ensures CutPage(rows, cuts', pages', i)
    {
      if i < |pages| {
        assert CutPage(rows, cuts, pages, i);
        assert cuts'[i] == cuts[i] && cuts'[i + 1] == cuts[i + 1] && pages'[i] == pages[i];
      } else {
        assert cuts'[i] == cuts[|pages|] && cuts'[i + 1] == e && pages'[i] == p;
      }
    }
  }

  /** A placing round keeps the cut points, adding the end once the last row is placed. */
  lemma PlaceCuts(rows: seq<string>, k: nat, page: string, pages: seq<string>, cuts: seq<nat>)
    requires k < |rows| && CutSoFar(rows, k, page, pages, cuts)
    requires |page| + |rows[k]| < FieldLimit
    ensures k + 1 < |rows| ==> CutSoFar(rows, k + 1, page + rows[k], pages, cuts)
    ensures k + 1 == |rows| ==> CutSoFar(rows, k + 1, page + rows[k], pages + [page + rows[k]], cuts + [k + 1])
  {
    var c := cuts[|pages|];
    assert rows[c..k + 1] == rows[c..k] + [rows[k]];
    ConcatAppend(rows[c..k], rows[k]);
    if k + 1 == |rows| {
      CutAppend(rows, cuts, pages, k + 1, page + rows[k]);
    }
  }

  /** A sealing round cuts at the row that did not fit. */
  lemma SealCuts(rows: seq<string>, k: nat, page: string, pages: seq<string>, cuts: seq<nat>)
    requires k < |rows| && CutSoFar(rows, k, page, pages, cuts)
    requires |page| + |rows[k]| >= FieldLimit && |page| > 0
    ensures CutSoFar(rows, k, "", pages + [page], cuts + [k])
  {
    CutAppend(rows, cuts, pages, k, page);
    assert rows[k..k] == [];
  }

  /** The cut points after one round of the page-filling loop. */
  ghost function NextCuts(rows: seq<string>, k: nat, page: string, cuts: seq<nat>): seq<nat>
    requires k < |rows|
  {
    if |page| + |rows[k]| >= FieldLimit then cuts + [k]
    else if k + 1 == |rows| then cuts + [k + 1]
    else cuts
  }

  /** One round of the page-filling loop keeps both of its invariants, and either places a
      row or shortens the open page. */
  lemma FillKeeps(rows: seq<string>, k: nat, page: string, pages: seq<string>, cuts: seq<nat>)
    requires PagesFit(rows) && k < |rows|
    requires Filled(rows, k, page, pages) && CutSoFar(rows, k, page, pages, cuts)
    ensures var (f, sealed) := FillStep(rows, Fill(k, page));
      && Filled(rows, f.next, f.page, Emit(pages, sealed))
      && CutSoFar(rows, f.next, f.page, Emit(pages, sealed), NextCuts(rows, k, page, cuts))
      && (f.next == k + 1 || (f.next == k && |f.page| < |page|))
  {
    if |page| + |rows[k]| < FieldLimit {
      PlaceKeeps(rows, k, page, pages);
      PlaceCuts(rows, k, page, pages, cuts);
    } else {
      SealKeeps(rows, k, page, pages);
      SealCuts(rows, k, page, pages, cuts);
    }
  }

  /** After the last row, the cut points are a greedy cut of all the rows. */
  lemma CutsDone(rows: seq<string>, page: string, pages: seq<string>, cuts: seq<nat>)
    requires CutSoFar(rows, |rows|, page, pages, cuts)
    ensures Greedy(rows, cuts, pages)
  {
  }

  /** Both invariants of the page-filling loop hold before its first round. */
  lemma FillStart(rows: seq<string>)
    ensures Filled(rows, 0, "", []) && CutSoFar(rows, 0, "", [], [0])
  {
    assert rows[..0] == [] && rows[0..0] == [];
  }

  /** What the page-filling loop's invariant gives once every row is placed. */
  lemma FilledDone(rows: seq<string>, page: string, pages: seq<string>)
    requires PagesFit(rows) && Filled(rows, |rows|, page, pages)
    ensures |rows| == 1 ==> |pages| == 1
    ensures Concat(pages) == Concat(rows)
    ensures PagesFit(pages)
    ensures |pages| == 0 <==> |rows| == 0
    ensures |rows| > 0 ==> (|pages| == 1 <==> |Concat(rows)| < FieldLimit)
  {
    if |rows| == 0 {
      assert rows[..0] == [];
    }
    if |pages| == 1 {
      assert pages == [] + [pages[0]];
      ConcatAppend([], pages[0]);
    }
    if |rows| == 1 {
      assert rows == [] + [rows[0]];
      ConcatAppend([], rows[0]);
    }
  }

  lemma RowsOfListFit(list: seq<Entry>)
    requires forall i :: 0 <= i < |list| ==> |Row(i + 1, list[i].song)| < FieldLimit
    ensures PagesFit(Rows(list))
  {
    var rows := Rows(list);
    forall i | 0 <= i < |rows|
      ensures 0 < |rows[i]| < FieldLimit
    {
      assert rows[i] == Row(i + 1, list[i].song);
      assert rows[i][0] == '`';
    }
  }

  /** Cutting rows greedily into fields. When every row fits in a field, the pages are
      non-empty and under the limit, together they are the rows in order, there is a page
      exactly when there is a row, and a single page exactly when the whole listing fits in
      one field. */
  method CutPages(rows: seq<string>) returns (pages: seq<string>)
    requires PagesFit(rows)
    ensures |rows| == 1 ==> |pages| == 1
    ensures Concat(pages) == Concat(rows)
    ensures PagesFit(pages)
    ensures |pages| == 0 <==> |rows| == 0
    ensures |rows| > 0 ==> (|pages| == 1 <==> |Concat(rows)| < FieldLimit)
    ensures exists cuts :: Greedy(rows, cuts, pages)
  {
    var k := 0;
    var page := "";
    pages := [];
    ghost var cuts: seq<nat> := [0];
    FillStart(rows);
    while k < |rows|
      invariant Filled(rows, k, page, pages)
      invariant CutSoFar(rows, k, page, pages, cuts)
      decreases |rows| - k, |page|
    {
      FillKeeps(rows, k, page, pages, cuts);
      var (f, sealed) := FillStep(rows, Fill(k, page));
      cuts := NextCuts(rows, k, page, cuts);
      pages := Emit(pages, sealed);
      k, page := f.next, f.page;
    }
    FilledDone(rows, page, pages);
    CutsDone(rows, page, pages, cuts);
  }

  /** The page-building loop of `queue`: the rows of the list cut into fields, and the
      duration of the whole list. */
  method BuildPages(list: seq<Entry>) returns (pages: seq<string>, total: nat)
    requires forall i :: 0 <= i < |list| ==> |Row(i + 1, list[i].song)| < FieldLimit
    ensures Concat(pages) == Concat(Rows(list))
    ensures PagesFit(pages)
    ensures |pages| == 0 <==> |list| == 0
    ensures |list| > 0 ==> (|pages| == 1 <==> |Concat(Rows(list))| < FieldLimit)
    ensures |pages| > 1 ==> |list| > 1
    ensures exists cuts :: Greedy(Rows(list), cuts, pages)
    ensures total == TotalDuration(list)
  {
    RowsOfListFit(list);
    pages := CutPages(Rows(list));
    total := SumDurations(list);
  }

  /** The running total of the page-building loop: the duration of the whole list. */
  method SumDurations(list: seq<Entry>) returns (total: nat)
    ensures total == TotalDuration(list)
  {
    total := 0;
    var k := 0;
    while k < |list|
      invariant k <= |list| && total == TotalDuration(list[..k])
    {
      TotalDurationAppend(list, k);
      total := total + list[k].song.duration;
      k := k + 1;
    }
    assert list[..|list|] == list;
  }

  /** The summary added to the shown page: the count and the total duration of the whole
      list, "song" for a single one. */
  function Summary(count: nat, total: nat): string {
    "**" + NatToString(count) + (if count == 1 then " song" else " songs") + " in queue | " + ConvertSeconds(total) + " queue duration**"
  }

  /** What one rendering of the queue message shows. */
  datatype Screen = Screen(page: string, summary: string, footer: string)

  /** The queue message: its pages and the summary of the whole list. */
  datatype Listing = Listing(pages: seq<string>, summary: string)

  /** `queue` after its guards: nothing to show when the base queue is empty; otherwise the
      pages of the list on display (the pending shuffled order, if any) with the summary of
      that whole list. */
  method ShowQueue(s: Session) returns (shown: Option<Listing>)
    requires forall i :: 0 <= i < |DisplayList(s)| ==> |Row(i + 1, DisplayList(s)[i].song)| < FieldLimit
    ensures shown.None? <==> |s.queue| == 0
    ensures shown.Some? ==>
      && Concat(shown.value.pages) == Concat(Rows(DisplayList(s)))
      && shown.value.summary == Summary(|DisplayList(s)|, TotalDuration(DisplayList(s)))
      && (forall i :: 0 <= i < |shown.value.pages| ==> |shown.value.pages[i]| < FieldLimit)
      && (|DisplayList(s)| > 0 ==> |shown.value.pages| > 0)
      && (|shown.value.pages| > 1 ==> |DisplayList(s)| > 1)
      && (exists cuts :: Greedy(Rows(DisplayList(s)), cuts, shown.value.pages))
  {
    if |s.queue| == 0 {
      return None;
    }
    var list := DisplayList(s);
    var pages, total := BuildPages(list);
    return Some(Listing(pages, Summary(|list|, total)));
  }

  /** The screens a paging session shows: the first page, then one per press that changes the
      page. Every screen carries the summary of the whole list and the number of the page it
      shows. */
  function Screens(l: Listing, buttons: seq<Button>): (r: seq<Screen>)
    requires |l.pages| > 0
    ensures |r| >= 1 && r[0] == Screen(l.pages[0], l.summary, Footer("Page", 0, |l.pages|))
    ensures forall i :: 0 <= i < |r| ==> exists p :: 0 <= p < |l.pages| && r[i] == Screen(l.pages[p], l.summary, Footer("Page", p, |l.pages|))
    ensures var last := PressAll(0, |l.pages|, buttons);
      r[|r| - 1] == Screen(l.pages[last], l.summary, Footer("Page", last, |l.pages|))
    ensures |buttons| > 0 && Press(0, |l.pages|, buttons[0]) != 0 ==>
      var p := Press(0, |l.pages|, buttons[0]);
      |r| > 1 && r[1] == Screen(l.pages[p], l.summary, Footer("Page", p, |l.pages|))
    ensures |r| <= |buttons| + 1
  {
    var n := |l.pages|;
    var shown := Shown(n, buttons);
    seq(|shown|, i requires 0 <= i < |shown| => Screen(l.pages[shown[i]], l.summary, Footer("Page", shown[i], n)))
  }

  /** No two screens in a row are alike: each re-render shows another page number. */
  lemma ScreensChange(l: Listing, buttons: seq<Button>)
    requires |l.pages| > 0
    ensures var r := Screens(l, buttons);
      forall i :: 0 < i < |r| ==> r[i].footer != r[i - 1].footer
  {
    var n := |l.pages|;
    var shown := Shown(n, buttons);
    var r := Screens(l, buttons);
    forall i | 0 < i < |r|
      ensures r[i].footer != r[i - 1].footer
    {
      assert r[i].footer == Footer("Page", shown[i], n) && r[i - 1].footer == Footer("Page", shown[i - 1], n);
      FooterDistinct("Page", shown[i], shown[i - 1], n);
    }
  }
}

=== FILE: session.dfy ===
/** The playback session of the current music cog: its queue state and the queue commands
    that touch nothing but that state. */
module Session {
  import opened Wrappers
  import opened Songs
  import opened SongCache

  /** A queue entry: the song and the name of the voice channel its requester was in. */
  datatype Entry = Entry(song: Song, channel: string)

  /** The voice client the bot holds: the channel it was opened on, and whether it is
      still connected (a client whose reconnection failed stays behind disconnected). */
  datatype VoiceClient = VoiceClient(channel: string, connected: bool)

  /** The cog's state. `shuffled` holds the order `shuffle` produced until playback adopts
      it; `nowPlaying` is a list, as in the cog; `store` is the song-metadata table. */
  datatype Session = Session(
    queue: seq<Entry>,
    shuffled: seq<Entry>,
    isShuffled: bool,
    isPlaying: bool,
    isPaused: bool,
    nowPlaying: seq<Song>,
    voice: Option<VoiceClient>,
    store: Store)

  /** A fresh cog: nothing queued, playing or connected. */
  function Initial(store: Store): (s: Session)
    ensures s.queue == [] && s.shuffled == [] && s.nowPlaying == []
    ensures !s.isShuffled && !s.isPlaying && !s.isPaused && s.voice.None?
  {
    Session([], [], false, false, false, [], None, store)
  }

  /** The list the `queue` command shows: the shuffled order while one is pending. */
  function DisplayList(s: Session): seq<Entry> {
    if s.isShuffled then s.shuffled else s.queue
  }

  // ---------------------------------------------------------------------------------------
  // Python list primitives

  /** The position `list.pop(i)` removes from a list of length `n`, counting a negative `i`
      from the end; `None` where Python raises `IndexError`. */
  function PopIndex(i: int, n: nat): (r: Option<nat>)
    ensures r.Some? <==> -(n as int) <= i < n
    ensures r.Some? ==> r.value < n && (r.value == i || r.value == i + n)
  {
    if 0 <= i < n then Some(i) else if -(n as int) <= i < 0 then Some((i + n) as nat) else None
  }

  /** `q` without its element at `i`. */
  function RemoveAt<T>(q: seq<T>, i: nat): (r: seq<T>)
    requires i < |q|
    ensures |r| == |q| - 1
  {
    q[..i] + q[i + 1..]
  }

  lemma RemoveAtMultiset<T>(q: seq<T>, i: nat)
    requires i < |q|
    ensures multiset(RemoveAt(q, i)) + multiset{q[i]} == multiset(q)
  {
    assert q == q[..i] + [q[i]] + q[i + 1..];
  }

  /** The position `list.insert(j, x)` places `x` at in a list of length `n`: a negative `j`
      counts from the end, and both ends clamp. */
  function InsertIndex(j: int, n: nat): (k: nat)
    ensures k <= n
    ensures 0 <= j <= n ==> k == j
    ensures j > n ==> k == n
  {
    if j < 0 then (if j + n < 0 then 0 else j + n) else if j > n then n else j
  }

  /** `list.insert(j, x)`. */
  function InsertAt<T>(q: seq<T>, j: int, x: T): (r: seq<T>)
    ensures |r| == |q| + 1
    ensures r[InsertIndex(j, |q|)] == x
    ensures RemoveAt(r, InsertIndex(j, |q|)) == q
  {
    var k := InsertIndex(j, |q|);
    var r := q[..k] + [x] + q[k..];
    assert q == q[..k] + q[k..];
    assert RemoveAt(r, k) == q;
    r
  }

  // ---------------------------------------------------------------------------------------
  // move

  /** One word of the `move` arguments: empty, a number `int()` accepts, or anything else. */
  datatype Arg = Blank | Num(value: int) | Word

  datatype MoveError = EmptyQueue | WrongArity | NotANumber | NotPositive | OutOfRange

  datatype MoveResult<T> = Moved(queue: seq<T>) | Refused(error: MoveError)

  /** `r` is `q` with one entry taken out and put back somewhere: same length, and the
      others in their relative order (so the same entries: `RelocationPermutes`). */
  ghost predicate IsRelocation<T>(q: seq<T>, r: seq<T>) {
    && |r| == |q|
    && exists i, k :: 0 <= i < |q| && 0 <= k < |q| && r[k] == q[i] && RemoveAt(r, k) == RemoveAt(q, i)
  }

  lemma RelocationWitness<T>(q: seq<T>, r: seq<T>, i: nat, k: nat)
    requires i < |q| && k < |r| && |r| == |q|
    requires r[k] == q[i] && RemoveAt(r, k) == RemoveAt(q, i)
    ensures IsRelocation(q, r)
  {
  }

  /** A relocation keeps the same entries. */
  lemma RelocationPermutes<T>(q: seq<T>, r: seq<T>)
    requires IsRelocation(q, r)
    ensures multiset(r) == multiset(q)
  {
    var i, k :| 0 <= i < |q| && 0 <= k < |q| && r[k] == q[i] && RemoveAt(r, k) == RemoveAt(q, i);
    RemoveAtMultiset(r, k);
    RemoveAtMultiset(q, i);
  }

  /** `item = q.pop(i); q.insert(j, item)`: the entry at `i` taken out and put back at `j`. */
  function Relocate<T>(q: seq<T>, i: nat, j: int): (r: seq<T>)
    requires i < |q|
    ensures IsRelocation(q, r)
    ensures r[InsertIndex(j, |q| - 1)] == q[i]
    ensures RemoveAt(r, InsertIndex(j, |q| - 1)) == RemoveAt(q, i)
  {
    var rest := RemoveAt(q, i);
    var r := InsertAt(rest, j, q[i]);
    RelocationWitness(q, r, i, InsertIndex(j, |rest|));
    r
  }

  /** The two-position form once both words are numbers (already lowered to 0-based). */
  function MoveTo<T>(q: seq<T>, one: int, two: int): (r: MoveResult<T>)
    ensures r.Moved? ==> IsRelocation(q, r.queue)
    ensures r.Refused? ==> r.error in {NotPositive, OutOfRange}
  {
    if one >= 0 || two >= 0 then
      match PopIndex(one, |q|)
      case None => Refused(OutOfRange)
      case Some(i) => Moved(Relocate(q, i, two))
    else Refused(NotPositive)
  }

  /** The one-position form once the word is a number (already lowered to 0-based). */
  function MoveFront<T>(q: seq<T>, one: int): (r: MoveResult<T>)
    ensures r.Moved? ==> IsRelocation(q, r.queue)
    ensures r.Refused? ==> r.error in {NotPositive, OutOfRange}
  {
    if one >= 0 then
      match PopIndex(one, |q|)
      case None => Refused(OutOfRange)
      case Some(i) => Moved(Relocate(q, i, 0))
    else Refused(NotPositive)
  }

  /** How the words after `move` read, positions already lowered to 0-based: one position,
      two, or a refusal. No words reads as the single empty word that splitting "" yields;
      more than two words, or an empty first one, is the wrong number; a word `int` rejects
      (Python's `ValueError`) is not a number. */
  datatype Positions = One(one: int) | Two(one: int, two: int) | Unreadable(error: MoveError)

  function ParsePositions(args: seq<Arg>): (r: Positions)
    ensures |args| == 0 || |args| > 2 || args[0] == Blank ==> r == Unreadable(WrongArity)
    ensures r.Unreadable? ==> r.error in {WrongArity, NotANumber}
  {
    var positions := if |args| == 0 then [Blank] else args;
    if !(|positions| < 3 && positions[0] != Blank) then Unreadable(WrongArity)
    else if |positions| == 2 then
      if !positions[0].Num? || !positions[1].Num? then Unreadable(NotANumber)
      else Two(positions[0].value - 1, positions[1].value - 1)
    else
      if !positions[0].Num? then Unreadable(NotANumber)
      else One(positions[0].value - 1)
  }

  /** Numbers read as positions one below them. */
  lemma ParseNumbers(a: int, b: int)
    ensures ParsePositions([Num(a)]) == One(a - 1)
    ensures ParsePositions([Num(a), Num(b)]) == Two(a - 1, b - 1)
  {
    var one, two := [Num(a)], [Num(a), Num(b)];
    assert |one| == 1 && one[0] == Num(a);
    assert |two| == 2 && two[0] == Num(a) && two[1] == Num(b);
  }

  /** The `move` command on a queue. With two positions the guard accepts when EITHER is at
      least 1, so a position below 1 reaches `pop` as a negative index; a position `pop`
      rejects (Python's `IndexError`) or an unreadable argument leaves the queue as it
      was. */
  function Move<T>(q: seq<T>, args: seq<Arg>): (r: MoveResult<T>)
    ensures r.Moved? ==> IsRelocation(q, r.queue)
    ensures |q| == 0 ==> r == Refused(EmptyQueue)
    ensures |q| > 0 && (|args| == 0 || |args| > 2 || args[0] == Blank) ==> r == Refused(WrongArity)
  {
    if |q| == 0 then Refused(EmptyQueue)
    else
      match ParsePositions(args)
      case Unreadable(e) => Refused(e)
      case Two(one, two) => MoveTo(q, one, two)
      case One(one) => MoveFront(q, one)
  }

  lemma MoveDispatchOne<T>(q: seq<T>, a: int)
    requires |q| > 0
    ensures Move(q, [Num(a)]) == MoveFront(q, a - 1)
  {
    ParseNumbers(a, 0);
  }

  lemma MoveDispatchTwo<T>(q: seq<T>, a: int, b: int)
    requires |q| > 0
    ensures Move(q, [Num(a), Num(b)]) == MoveTo(q, a - 1, b - 1)
  {
    ParseNumbers(a, b);
  }

  /** A position in range is taken as it is. */
  lemma MoveToInRange<T>(q: seq<T>, i: nat, two: int)
    requires i < |q|
    ensures MoveTo(q, i, two) == Moved(Relocate(q, i, two))
    ensures MoveFront(q, i) == Moved(Relocate(q, i, 0))
  {
    assert PopIndex(i, |q|) == Some(i);
  }

  /** `move p q` with `p` in range and `q >= 1`: the entry lands at `min(q, n) - 1` and the
      others keep their relative order. */
  lemma MoveTwo<T>(q: seq<T>, p: int, t: int)
    requires 1 <= p <= |q| && t >= 1
    ensures var r := Move(q, [Num(p), Num(t)]);
      var k := if t - 1 < |q| - 1 then t - 1 else |q| - 1;
      && r.Moved? && r.queue[k] == q[p - 1] && RemoveAt(r.queue, k) == RemoveAt(q, p - 1)
      && multiset(r.queue) == multiset(q)
  {
    MoveDispatchTwo(q, p, t);
    MoveToInRange(q, p - 1, t - 1);
    var k := if t - 1 < |q| - 1 then t - 1 else |q| - 1;
    assert InsertIndex(t - 1, |q| - 1) == k;
    RelocationPermutes(q, Relocate(q, p - 1, t - 1));
  }

  /** Relocating to the front: the entry first, then the others in order. */
  lemma RelocateFront<T>(q: seq<T>, i: nat)
    requires i < |q|
    ensures Relocate(q, i, 0) == [q[i]] + RemoveAt(q, i)
  {
    var rest := RemoveAt(q, i);
    assert InsertIndex(0, |rest|) == 0;
    assert rest[..0] + [q[i]] + rest[0..] == [q[i]] + rest;
  }

  /** `move p` with `p` in range brings that entry to the front, the rest in order. */
  lemma MoveOne<T>(q: seq<T>, p: int)
    requires 1 <= p <= |q|
    ensures Move(q, [Num(p)]) == Moved([q[p - 1]] + RemoveAt(q, p - 1))
  {
    calc {
      Move(q, [Num(p)]);
      { MoveDispatchOne(q, p); }
      MoveFront(q, p - 1);
      { MoveToInRange(q, p - 1, 0); }
      Moved(Relocate(q, p - 1, 0));
      { RelocateFront(q, p - 1); }
      Moved([q[p - 1]] + RemoveAt(q, p - 1));
    }
  }

  /** `move p q` with `p` and `q` both below 1, `move p` with `p` below 1, or a `p` past the
      end: nothing changes. */
  lemma MoveRefusals<T>(q: seq<T>, p: int, t: int)
    requires |q| > 0
    ensures p < 1 && t < 1 ==> Move(q, [Num(p), Num(t)]) == Refused(NotPositive)
    ensures p < 1 ==> Move(q, [Num(p)]) == Refused(NotPositive)
    ensures p > |q| ==> Move(q, [Num(p)]) == Refused(OutOfRange)
    ensures p > |q| ==> Move(q, [Num(p), Num(t)]).Refused?
  {
  }

  /** Because of the `or` guard, `move 0 t` moves the LAST entry to position `t`. */
  lemma MoveZeroMovesLast<T>(q: seq<T>, t: int)
    requires |q| > 0 && 1 <= t <= |q|
    ensures Move(q, [Num(0), Num(t)]) == Moved(InsertAt(q[..|q| - 1], t - 1, q[|q| - 1]))
  {
    calc {
      Move(q, [Num(0), Num(t)]);
      { MoveDispatchTwo(q, 0, t); }
      MoveTo(q, -1, t - 1);
      { assert PopIndex(-1, |q|) == Some(|q| - 1); }
      Moved(Relocate(q, |q| - 1, t - 1));
      { assert RemoveAt(q, |q| - 1) == q[..|q| - 1]; }
      Moved(InsertAt(q[..|q| - 1], t - 1, q[|q| - 1]));
    }
  }

  /** `move 1 1` leaves the order as it is. */
  lemma MoveInPlace<T>(q: seq<T>)
    requires |q| > 0
    ensures Move(q, [Num(1), Num(1)]) == Moved(q)
  {
    MoveDispatchTwo(q, 1, 1);
    MoveToInRange(q, 0, 0);
    RelocateFront(q, 0);
    assert [q[0]] + q[1..] == q;
  }

  /** The `move` command on the session: only the base queue changes. */
  function MoveCommand(s: Session, args: seq<Arg>): (r: Session)
    ensures r.(queue := s.queue) == s
    ensures multiset(r.queue) == multiset(s.queue)
  {
    match Move(s.queue, args)
    case Moved(q) => RelocationPermutes(s.queue, q); s.(queue := q)
    case Refused(_) => s
  }

  // ---------------------------------------------------------------------------------------
  // shuffle

  function Swap<T>(a: seq<T>, i: nat, j: nat): (r: seq<T>)
    requires i < |a| && j < |a|
    ensures |r| == |a| && multiset(r) == multiset(a)
  {
    a[i := a[j]][j := a[i]]
  }

  /** The Fisher-Yates pass numpy's `shuffle` makes, from position `i` down to 1: position `i`
      swaps with `pick(i) mod (i + 1)`. `pick` stands for the random generator. */
  function FisherYates<T>(a: seq<T>, i: nat, pick: nat -> nat): (r: seq<T>)
    requires i < |a|
    ensures |r| == |a| && multiset(r) == multiset(a)
    decreases i
  {
    if i == 0 then a else FisherYates(Swap(a, i, pick(i) % (i + 1)), i - 1, pick)
  }

  /** `shuffle`: a non-empty queue gets a permuted copy that playback will adopt later; the
      base queue itself stays as it is. An empty queue changes nothing. */
  function Shuffle(s: Session, pick: nat -> nat): (r: Session)
    ensures |s.queue| == 0 ==> r == s
    ensures |s.queue| > 0 ==>
      && r.isShuffled && r.queue == s.queue
      && |r.shuffled| == |s.queue| && multiset(r.shuffled) == multiset(s.queue)
      && r.(shuffled := s.shuffled, isShuffled := s.isShuffled) == s
    ensures DisplayList(r) == if |s.queue| > 0 then r.shuffled else DisplayList(s)
  {
    if |s.queue| > 0 then s.(shuffled := FisherYates(s.queue, |s.queue| - 1, pick), isShuffled := true)
    else s
  }

  // ---------------------------------------------------------------------------------------
  // pause, resume, disconnect, skip

  /** Neither playing and paused at once. */
  predicate FlagsExclusive(s: Session) {
    !(s.isPlaying && s.isPaused)
  }

  /** `pause`: only while playing and holding a voice client. */
  function Pause(s: Session): (r: Session)
    ensures s.isPlaying && s.voice.Some? ==> r.isPaused && !r.isPlaying
    ensures !(s.isPlaying && s.voice.Some?) ==> r == s
    ensures r.(isPlaying := s.isPlaying, isPaused := s.isPaused) == s
  {
    if s.isPlaying && s.voice.Some? then s.(isPaused := true, isPlaying := false) else s
  }

  /** `resume`: only while paused and holding a voice client. */
  function Resume(s: Session): (r: Session)
    ensures s.isPaused && s.voice.Some? ==> r.isPlaying && !r.isPaused
    ensures !(s.isPaused && s.voice.Some?) ==> r == s
    ensures r.(isPlaying := s.isPlaying, isPaused := s.isPaused) == s
  {
    if s.isPaused && s.voice.Some? then s.(isPaused := false, isPlaying := true) else s
  }

  /** Pause and resume never make both flags true, and resume undoes pause. */
  lemma PauseResumeFlags(s: Session)
    requires FlagsExclusive(s)
    ensures FlagsExclusive(Pause(s)) && FlagsExclusive(Resume(s))
    ensures s.isPlaying && s.voice.Some? ==> Resume(Pause(s)) == s
    ensures s.isPaused && s.voice.Some? ==> Pause(Resume(s)) == s
  {
  }

  /** `disconnect`: with a connected client, drop it and forget the queue and the current
      song; the paused flag and any pending shuffled order are left as they were. */
  function Disconnect(s: Session): (r: Session)
    ensures s.voice.Some? && s.voice.value.connected ==>
      && r.voice.None? && !r.isPlaying && r.queue == [] && r.nowPlaying == []
      && r.isPaused == s.isPaused && r.shuffled == s.shuffled && r.isShuffled == s.isShuffled
      && r.store == s.store
    ensures !(s.voice.Some? && s.voice.value.connected) ==> r == s
  {
    if s.voice.Some? && s.voice.value.connected then
      s.(voice := None, isPlaying := false, queue := [], nowPlaying := [])
    else s
  }

  /** Disconnecting while paused leaves a session paused with no voice client, which
      `resume` can no longer leave. */
  lemma DisconnectWhilePaused(s: Session)
    requires s.isPlaying && s.voice.Some? && s.voice.value.connected
    ensures var d := Disconnect(Pause(s));
      d.isPaused && d.voice.None? && Resume(d) == d
  {
  }

  /** `skip` only asks the voice client to stop; it changes no session field. The advance
      happens when the client reports the end of the stream. `streaming` is the client's own
      `is_playing()`. The result says whether a stop was requested. */
  function Skip(s: Session, streaming: bool): (stop: bool)
    ensures stop ==> s.voice.Some?
    ensures s.voice.Some? && streaming ==> stop
  {
    s.voice.Some? && streaming
  }
}

=== FILE: song.dfy ===
/** The song record carried through the queue (the bot's `SongInfoDTO`). */
module Songs {
  import opened Wrappers

  /** One song. `author` is the requester's name, not the video's; `duration` is in whole
      seconds; `source` is the short-lived playable stream locator, "" when not yet resolved. */
  datatype Song = Song(
    author: string,
    url: string,
    title: string,
    duration: nat,
    source: string,
    thumbnail: Option<string>,
    formatId: Option<string>)

  /** Title or duration missing: the metadata still has to be fetched before display. */
  predicate Unresolved(s: Song) {
    s.title == "" || s.duration == 0
  }

  /** No playable source yet: it has to be resolved before playback. */
  predicate NeedsSource(s: Song) {
    s.source == ""
  }

  /** A record built from its two required fields only; every other field takes its default. */
  function NewSong(author: string, url: string): (s: Song)
    ensures s.author == author && s.url == url
    ensures Unresolved(s) && NeedsSource(s)
    ensures s.title == "" && s.duration == 0
    ensures s.thumbnail.None? && s.formatId.None?
  {
    Song(author, url, "", 0, "", None, None)
  }
}

=== FILE: stories.dfy ===
/** The two story pagers of the Halloween cogs: the older one cuts the story body into
    fixed slices of 1024 characters and pages through them with the navigation buttons; the
    newer one fills pages character by character and, when a page is full, backs up to the
    last space so that no word is cut, then sends every page with its number. */
module Stories {
  import opened Wrappers
  import opened Text
  import opened Paging

  /** The caption of a story footer. */
  const PageCaption: string := "Página"

  /** The slice width of the older pager. */
  const SliceWidth: nat := 1024

  /** The slices `story[i:i + 1024]` for `i` in `range(start, len(story), 1024)`; the last one
      ends where the story does. */
  function Slices(story: string, start: nat): seq<string>
    decreases |story| - start
  {
    if start >= |story| then []
    else
      var stop := if start + SliceWidth <= |story| then start + SliceWidth else |story|;
      [story[start..stop]] + Slices(story, start + SliceWidth)
  }

  /** The slices from `start` put back together give the story from `start` on. */
  lemma {:induction false} SlicesConcat(story: string, start: nat)
    requires start <= |story|
    ensures Concat(Slices(story, start)) == story[start..]
    decreases |story| - start
  {
    if start < |story| {
      var stop := if start + SliceWidth <= |story| then start + SliceWidth else |story|;
      var head := story[start..stop];
      var rest := Slices(story, start + SliceWidth);
      if start + SliceWidth <= |story| {
        SlicesConcat(story, start + SliceWidth);
        assert story[start..] == head + story[start + SliceWidth..];
      } else {
        assert rest == [];
      }
      ConcatJoin([head], rest);
      assert [head] == [] + [head];
      ConcatAppend([], head);
    }
  }

  /** There are as many slices as the ceiling of the remaining length over 1024; each has at
      most 1024 characters, and all but the last exactly 1024. */
  lemma {:induction false} SlicesShape(story: string, start: nat)
    requires start <= |story|
    ensures |Slices(story, start)| == (|story| - start + SliceWidth - 1) / SliceWidth
    ensures forall i :: 0 <= i < |Slices(story, start)| ==> 0 < |Slices(story, start)[i]| <= SliceWidth
    ensures forall i :: 0 <= i < |Slices(story, start)| - 1 ==> |Slices(story, start)[i]| == SliceWidth
    decreases |story| - start
  {
    if start + SliceWidth <= |story| {
      SlicesShape(story, start + SliceWidth);
    }
  }

  /** The older pager's slices of a whole story. */
  function FixedChunks(story: string): (r: seq<string>)
    ensures Concat(r) == story
    ensures |r| == (|story| + SliceWidth - 1) / SliceWidth
    ensures forall i :: 0 <= i < |r| ==> 0 < |r[i]| <= SliceWidth
    ensures forall i :: 0 <= i < |r| - 1 ==> |r[i]| == SliceWidth
  {
    SlicesConcat(story, 0);
    SlicesShape(story, 0);
    Slices(story, 0)
  }

  /** A body of at most 1024 characters is one slice; a longer one starts with its first
      1024 characters and has more. */
  lemma FixedChunksFirst(story: string)
    ensures |story| == 0 <==> |FixedChunks(story)| == 0
    ensures 0 < |story| <= SliceWidth ==> FixedChunks(story) == [story]
    ensures |story| > SliceWidth ==> |FixedChunks(story)| > 1 && FixedChunks(story)[0] == story[..SliceWidth]
  {
    if 0 < |story| <= SliceWidth {
      assert Slices(story, SliceWidth) == [];
      assert story[0..|story|] == story;
    }
  }

  /** One story message as shown: its text and footer. */
  datatype StoryScreen = StoryScreen(text: string, footer: string)

  /** What the older pager sends: the screens in order, and whether the navigation buttons
      are offered. */
  datatype Sent = Sent(screens: seq<StoryScreen>, buttons: bool)

  /** The screens of a paged story: each shown page with its own number. */
  function PagedScreens(chunks: seq<string>, presses: seq<Button>): (r: seq<StoryScreen>)
    requires |chunks| > 0
    ensures |r| > 0 && r[0] == StoryScreen(chunks[0], Footer(PageCaption, 0, |chunks|))
    ensures forall i :: 0 <= i < |r| ==> exists p :: 0 <= p < |chunks| && r[i] == StoryScreen(chunks[p], Footer(PageCaption, p, |chunks|))
    ensures var last := PressAll(0, |chunks|, presses);
      r[|r| - 1] == StoryScreen(chunks[last], Footer(PageCaption, last, |chunks|))
    ensures |presses| > 0 && Press(0, |chunks|, presses[0]) != 0 ==>
      var p := Press(0, |chunks|, presses[0]);
      |r| > 1 && r[1] == StoryScreen(chunks[p], Footer(PageCaption, p, |chunks|))
    ensures |r| <= |presses| + 1
  {
    var shown := Shown(|chunks|, presses);
    seq(|shown|, i requires 0 <= i < |shown| => StoryScreen(chunks[shown[i]], Footer(PageCaption, shown[i], |chunks|)))
  }

  /** The older pager: nothing for an empty body; a single slice is sent as "Página 1/1"
      without buttons; several slices get the buttons, and each press that changes the page
      re-renders it with its own number. */
  function ArmFixedStory(story: string, presses: seq<Button>): (r: Sent)
    ensures |story| == 0 <==> r.screens == []
    ensures 0 < |story| <= SliceWidth ==> r == Sent([StoryScreen(story, "Página 1/1")], false)
    ensures r.buttons <==> |story| > SliceWidth
    ensures r.buttons ==> r.screens[0] == StoryScreen(story[..SliceWidth], Footer(PageCaption, 0, |FixedChunks(story)|))
    ensures forall i :: 0 <= i < |r.screens| ==> exists p :: 0 <= p < |FixedChunks(story)| && r.screens[i] == StoryScreen(FixedChunks(story)[p], Footer(PageCaption, p, |FixedChunks(story)|))
    ensures r.buttons ==>
      var chunks := FixedChunks(story);
      var last := PressAll(0, |chunks|, presses);
      0 <= last < |chunks| && r.screens[|r.screens| - 1] == StoryScreen(chunks[last], Footer(PageCaption, last, |chunks|))
    ensures r.buttons && |presses| > 0 && Press(0, |FixedChunks(story)|, presses[0]) != 0 ==>
      var chunks := FixedChunks(story);
      var p := Press(0, |chunks|, presses[0]);
      0 <= p < |chunks| && |r.screens| > 1 && r.screens[1] == StoryScreen(chunks[p], Footer(PageCaption, p, |chunks|))
  {
    var chunks := FixedChunks(story);
    FixedChunksFirst(story);
    if |chunks| == 0 then Sent([], false)
    else if |chunks| == 1 then
      assert Footer(PageCaption, 0, 1) == "Página 1/1";
      Sent([StoryScreen(chunks[0], "Página 1/1")], false)
    else Sent(PagedScreens(chunks, presses), true)
  }

  /** The newer pager's state: how many characters of the body have been taken and the page
      being filled. */
  datatype Cursor = Cursor(added: nat, msg: string)

  /** One round of the newer pager: the cursor after it and the page it sealed, if any; or
      stuck when the backward scan for a space runs off the page. */
  datatype Step = Stepped(cursor: Cursor, sealed: Option<string>) | Stuck

  /** A page is at most this long: the page plus the next character must stay under the
      field limit. */
  const Window: nat := FieldLimit - 1

  /** The character at a Python index: negative indices count from the end. */
  function PyAt(msg: string, i: int): (r: char)
    requires -|msg| <= i < |msg|
    ensures r == msg[if i >= 0 then i else |msg| + i]
  {
    if i >= 0 then msg[i] else msg[|msg| + i]
  }

  /** The backward scan for a space from index `i`, counting the characters passed over in
      `deleted`. Indices run on below zero the Python way, from the end of the page, until
      they leave the page: then the scan fails. */
  function ScanBack(msg: string, i: int, deleted: nat): Option<nat>
    decreases i + |msg| + 1
  {
    if i < -|msg| || i >= |msg| then None
    else if PyAt(msg, i) != ' ' then ScanBack(msg, i - 1, deleted + 1)
    else Some(deleted)
  }

  /** The position of the last space of a page, if it has one. */
  function LastSpace(msg: string): (r: Option<nat>)
    ensures r.Some? ==> r.value < |msg| && msg[r.value] == ' ' && forall j :: r.value < j < |msg| ==> msg[j] != ' '
    ensures r.None? ==> forall j :: 0 <= j < |msg| ==> msg[j] != ' '
    decreases |msg|
  {
    if |msg| == 0 then None
    else if msg[|msg| - 1] == ' ' then Some(|msg| - 1)
    else LastSpace(msg[..|msg| - 1])
  }

  lemma {:induction false} ScanDown(msg: string, i: nat, deleted: nat)
    requires i < |msg|
    ensures ScanBack(msg, i, deleted) == match LastSpace(msg[..i + 1])
      case Some(p) => Some(deleted + i - p)
      case None => ScanBack(msg, -1, deleted + i + 1)
    decreases i
  {
    assert msg[..i + 1][..i] == msg[..i];
    if msg[i] != ' ' && i > 0 {
      ScanDown(msg, i - 1, deleted + 1);
    }
  }

  lemma {:induction false} ScanWrapsAndFails(msg: string, i: int, deleted: nat)
    requires i < 0
    requires forall j :: 0 <= j < |msg| ==> msg[j] != ' '
    ensures ScanBack(msg, i, deleted) == None
    decreases i + |msg| + 1
  {
    if -|msg| <= i {
      ScanWrapsAndFails(msg, i - 1, deleted + 1);
    }
  }

  /** The backward scan from the end of a page stops on its last space, having passed over
      the characters after it, and fails exactly when the page has no space. */
  lemma ScanBackIsLastSpace(msg: string)
    requires |msg| > 0
    ensures LastSpace(msg).Some? ==> ScanBack(msg, |msg| - 1, 0) == Some(|msg| - 1 - LastSpace(msg).value)
    ensures LastSpace(msg).None? ==> ScanBack(msg, |msg| - 1, 0) == None
  {
    var i := |msg| - 1;
    ScanDown(msg, i, 0);
    assert msg[..i + 1] == msg;
    if LastSpace(msg).None? {
      ScanWrapsAndFails(msg, -1, |msg|);
    }
  }

  /** One round of the newer pager's loop. While the page plus the next character stays under
      the field limit, the character is taken (and the page sent when it was the last one).
      A full page that ends in a space is sent whole; otherwise the scan backs up to the last
      space, the page is sent up to and including it, and the characters after it are given
      back to the body. */
  function WordStep(story: string, c: Cursor): (r: Step)
    requires c.added < |story| && |c.msg| <= c.added && |c.msg| <= Window
  {
    if |c.msg| + 1 < FieldLimit then
      var next := Cursor(c.added + 1, c.msg + [story[c.added]]);
      Stepped(next, if next.added == |story| then Some(next.msg) else None)
    else if c.msg[|c.msg| - 1] == ' ' then Stepped(Cursor(c.added, ""), Some(c.msg))
    else
      ScanBackIsLastSpace(c.msg);
      match ScanBack(c.msg, |c.msg| - 1, 0)
      case None => Stuck
      case Some(deleted) => Stepped(Cursor(c.added - deleted, ""), Some(c.msg[..|c.msg| - deleted]))
  }

  /** A page ends with a space. */
  predicate EndsInSpace(page: string) {
    |page| > 0 && page[|page| - 1] == ' '
  }

  /** Page `i` was filled as far as the pager could: it starts where the pages before it end,
      a full window of the body follows that start, and that window has no space after the
      page. So the page runs up to the window's last space (or is the whole window). */
  predicate WordPage(story: string, pages: seq<string>, i: nat)
    requires i < |pages|
  {
    var s := |Concat(pages[..i])|;
    && s + Window < |story|
    && |pages[i]| <= Window
    && forall j :: s + |pages[i]| <= j < s + Window ==> story[j] != ' '
  }

  /** A filled page stays filled when another page is sent after it. */
  lemma WordPageExtend(story: string, pages: seq<string>, q: string, i: nat)
    requires i < |pages| && WordPage(story, pages, i)
    ensures WordPage(story, pages + [q], i)
  {
    assert (pages + [q])[..i] == pages[..i];
  }

  /** What the newer pager's loop keeps: sent pages fit a field; all of them end in a space
      except one sent on reaching the end; the sent pages and the open page are the body taken
      so far (after the end, the last sent page is the open one). */
  ghost predicate Chunking(story: string, c: Cursor, pages: seq<string>) {
    && c.added <= |story|
    && |c.msg| <= c.added
    && |c.msg| <= Window
    && PagesFit(pages)
    && (forall i :: 0 <= i < |pages| && (i + 1 < |pages| || c.added < |story|) ==> EndsInSpace(pages[i]))
    && (forall i :: 0 <= i < |pages| && (i + 1 < |pages| || c.added < |story|) ==> WordPage(story, pages, i))
    && (|story| == 0 ==> pages == [])
    && (if c.added == |story| && |story| > 0
        then Concat(pages) == story && |pages| > 0 && pages[|pages| - 1] == c.msg
        else Concat(pages) + c.msg == story[..c.added])
  }

  lemma TakeKeeps(story: string, c: Cursor, pages: seq<string>)
    requires c.added < |story| && Chunking(story, c, pages) && |c.msg| + 1 < FieldLimit
    ensures WordStep(story, c).Stepped?
    ensures Chunking(story, WordStep(story, c).cursor, Emit(pages, WordStep(story, c).sealed))
    ensures |Concat(Emit(pages, WordStep(story, c).sealed))| <= |story|
  {
    var next := Cursor(c.added + 1, c.msg + [story[c.added]]);
    assert story[..c.added + 1] == story[..c.added] + [story[c.added]];
    assert Concat(pages) + next.msg == story[..next.added];
    if next.added == |story| {
      assert story[..next.added] == story;
      forall i | 0 <= i < |pages|
        ensures WordPage(story, pages + [next.msg], i)
      {
        WordPageExtend(story, pages, next.msg, i);
      }
    }
  }

  lemma SealKeeps(story: string, c: Cursor, pages: seq<string>)
    requires c.added < |story| && Chunking(story, c, pages) && |c.msg| + 1 >= FieldLimit
    requires EndsInSpace(c.msg)
    ensures WordStep(story, c) == Stepped(Cursor(c.added, ""), Some(c.msg))
    ensures Chunking(story, Cursor(c.added, ""), pages + [c.msg])
    ensures |Concat(pages)| < |Concat(pages + [c.msg])| <= |story|
  {
    ConcatAppend(pages, c.msg);
    NewPageFilled(story, c, pages, c.msg);
  }

  lemma CutKeeps(story: string, c: Cursor, pages: seq<string>, p: nat)
    requires c.added < |story| && Chunking(story, c, pages) && |c.msg| + 1 >= FieldLimit
    requires !EndsInSpace(c.msg) && LastSpace(c.msg) == Some(p)
    ensures WordStep(story, c) == Stepped(Cursor(c.added - (Window - 1 - p), ""), Some(c.msg[..p + 1]))
    ensures Chunking(story, Cursor(c.added - (Window - 1 - p), ""), pages + [c.msg[..p + 1]])
    ensures |Concat(pages)| < |Concat(pages + [c.msg[..p + 1]])| <= |story|
  {
    ScanBackIsLastSpace(c.msg);
    var a := Concat(pages);
    var page := c.msg[..p + 1];
    var added := c.added - (Window - 1 - p);
    ConcatAppend(pages, page);
    assert a + c.msg == story[..c.added];
    assert (a + c.msg)[..|a| + p + 1] == a + page;
    assert story[..c.added][..added] == story[..added];
    assert Concat(pages + [page]) == story[..added];
    assert EndsInSpace(page);
    NewPageFilled(story, c, pages, page);
  }

  /** A page sent from a full window is filled as far as the pager could, when nothing but
      non-spaces of the window follow it; and the pages before it stay filled. */
  lemma NewPageFilled(story: string, c: Cursor, pages: seq<string>, page: string)
    requires c.added < |story| && Chunking(story, c, pages) && |c.msg| + 1 >= FieldLimit
    requires |page| <= |c.msg| && page == c.msg[..|page|]
    requires forall j :: |page| <= j < |c.msg| ==> c.msg[j] != ' '
    ensures forall i :: 0 <= i < |pages| + 1 ==> WordPage(story, pages + [page], i)
  {
    var a := Concat(pages);
    assert a + c.msg == story[..c.added];
    assert (pages + [page])[..|pages|] == pages;
    forall j | |a| + |page| <= j < |a| + Window
      ensures story[j] != ' '
    {
      assert story[j] == (a + c.msg)[j] == c.msg[j - |a|];
    }
    assert WordPage(story, pages + [page], |pages|);
    forall i | 0 <= i < |pages|
      ensures WordPage(story, pages + [page], i)
    {
      WordPageExtend(story, pages, page, i);
    }
  }

  lemma StuckWindow(story: string, c: Cursor, pages: seq<string>)
    requires c.added < |story| && Chunking(story, c, pages) && |c.msg| + 1 >= FieldLimit
    requires !EndsInSpace(c.msg) && LastSpace(c.msg).None?
    ensures WordStep(story, c) == Stuck
    ensures c.added - |c.msg| + Window < |story|
    ensures !WindowHasSpace(story, c.added - |c.msg|)
  {
    ScanBackIsLastSpace(c.msg);
    var a := Concat(pages);
    assert a + c.msg == story[..c.added];
    assert forall j :: c.added - |c.msg| <= j < c.added ==> story[j] == c.msg[j - |a|];
  }

  /** The `Window` characters of the body from `start` contain a space. */
  predicate WindowHasSpace(story: string, start: nat)
    requires start + Window <= |story|
  {
    exists j :: start <= j < start + Window && story[j] == ' '
  }

  /** How the newer pager ends: the pages it sent, or the start of a full page without a
      space, where the backward scan ran off the page. */
  datatype Chunks = Pages(pages: seq<string>) | Unbreakable(start: nat)

  /** The newer pager's loop. The pages fit in a field, put together they are the body, every
      page but the last ends in a space so that no word is cut and runs up to the last space
      of the full window that starts with it, and there are pages exactly when the body is
      not empty. It fails only on a stretch of `Window` characters without a space that some
      character of the body still follows, so a body with a space in every such stretch is
      always paged. */
  method WordChunks(story: string) returns (r: Chunks)
    ensures r.Pages? ==> Concat(r.pages) == story && PagesFit(r.pages)
    ensures r.Pages? ==> forall i :: 0 <= i < |r.pages| - 1 ==> EndsInSpace(r.pages[i])
    ensures r.Pages? ==> (|r.pages| == 0 <==> |story| == 0)
    ensures r.Pages? ==> forall i :: 0 <= i < |r.pages| - 1 ==> WordPage(story, r.pages, i)
    ensures r.Unbreakable? ==> r.start + Window < |story| && !WindowHasSpace(story, r.start)
    ensures (forall j: nat :: j + Window < |story| ==> WindowHasSpace(story, j)) ==> r.Pages?
  {
    var c := Cursor(0, "");
    var pages: seq<string> := [];
    while c.added < |story|
      invariant Chunking(story, c, pages)
      invariant |Concat(pages)| <= |story|
      decreases |story| - |Concat(pages)|, |story| - c.added
    {
      if |c.msg| + 1 < FieldLimit {
        TakeKeeps(story, c, pages);
      } else if EndsInSpace(c.msg) {
        SealKeeps(story, c, pages);
      } else if LastSpace(c.msg).Some? {
        CutKeeps(story, c, pages, LastSpace(c.msg).value);
      } else {
        StuckWindow(story, c, pages);
        return Unbreakable(c.added - |c.msg|);
      }
      var step := WordStep(story, c);
      pages := Emit(pages, step.sealed);
      c := step.cursor;
    }
    return Pages(pages);
  }

  /** The newer pager sends every page with its number: "Página k/n" on the k-th of n. */
  function NumberPages(pages: seq<string>): (r: seq<StoryScreen>)
    ensures |r| == |pages|
    ensures forall k :: 0 <= k < |r| ==> r[k].text == pages[k]
    ensures forall k :: 0 <= k < |r| ==> FooterPage(r[k].footer, |PageCaption|) == k
    ensures forall k :: 0 <= k < |r| ==> r[k].footer == Footer(PageCaption, k, |pages|)
  {
    var r := seq(|pages|, k requires 0 <= k < |pages| => StoryScreen(pages[k], Footer(PageCaption, k, |pages|)));
    assert forall k :: 0 <= k < |r| ==> FooterPage(r[k].footer, |PageCaption|) == k by {
      forall k | 0 <= k < |r|
        ensures FooterPage(r[k].footer, |PageCaption|) == k
      {
        FooterRoundTrip(PageCaption, k, |pages|);
      }
    }
    r
  }
}

=== FILE: text.dfy ===
/** String helpers with the meaning of the Python built-ins the bot relies on. */
module Text {
  import opened Wrappers

  predicate IsDigit(c: char) {
    '0' <= c <= '9'
  }

  predicate AllDigits(s: string) {
    forall i :: 0 <= i < |s| ==> IsDigit(s[i])
  }

  function DigitChar(d: nat): (c: char)
    requires d < 10
    ensures IsDigit(c)
  {
    ('0' as int + d) as char
  }

  function DigitValue(c: char): (d: nat)
    requires IsDigit(c)
    ensures d < 10
  {
    c as int - '0' as int
  }

  /** The number a run of decimal digits denotes (Python's `int` on such a run). */
  function DigitsValue(s: string): nat
    requires AllDigits(s)
    decreases |s|
  {
    if |s| == 0 then 0 else 10 * DigitsValue(s[..|s| - 1]) + DigitValue(s[|s| - 1])
  }

  /** Python's `str(n)` / `"%d" % n` for a non-negative integer. */
  function NatToString(n: nat): (r: string)
    ensures |r| >= 1 && AllDigits(r)
    ensures DigitsValue(r) == n
    ensures n < 10 <==> |r| == 1
    decreases n
  {
    if n < 10 then [DigitChar(n)]
    else
      var p := NatToString(n / 10);
      var r := p + [DigitChar(n % 10)];
      assert r[..|r| - 1] == p;
      r
  }

  /** Python's `"%02d" % n` for `n < 100`. */
  function Pad2(n: nat): (r: string)
    requires n < 100
    ensures |r| == 2 && AllDigits(r) && DigitsValue(r) == n
  {
    var r := [DigitChar(n / 10), DigitChar(n % 10)];
    assert r[..1] == [DigitChar(n / 10)];
    assert r[..1][..0] == [];
    assert DigitsValue(r[..1]) == n / 10;
    r
  }

  /** `pat` occurs in `s` starting at index `i`. */
  predicate OccursAt(s: string, pat: string, i: nat) {
    i + |pat| <= |s| && s[i..i + |pat|] == pat
  }

  /** The first index at or after `from` where `pat` occurs (Python's `s.find(pat, from)`). */
  function FindFrom(s: string, pat: string, from: nat): (r: Option<nat>)
    ensures r.Some? ==> from <= r.value && OccursAt(s, pat, r.value)
    ensures r.Some? ==> forall j :: from <= j < r.value ==> !OccursAt(s, pat, j)
    ensures r.None? ==> forall j :: from <= j ==> !OccursAt(s, pat, j)
    decreases |s| - from
  {
    if from + |pat| > |s| then None
    else if s[from..from + |pat|] == pat then Some(from)
    else FindFrom(s, pat, from + 1)
  }

  /** Python's `pat in s`. */
  predicate Contains(s: string, pat: string) {
    FindFrom(s, pat, 0).Some?
  }

  lemma ContainsAt(s: string, pat: string, i: nat)
    requires OccursAt(s, pat, i)
    ensures Contains(s, pat)
  {
  }

  /** Python's `s.split(pat)[0]` for a non-empty separator: everything before the first `pat`. */
  function BeforeFirst(s: string, pat: string): (r: string)
    requires |pat| > 0
    ensures |r| <= |s| && r == s[..|r|]
    ensures !Contains(r, pat)
    ensures Contains(s, pat) ==> OccursAt(s, pat, |r|)
    ensures !Contains(s, pat) ==> r == s
  {
    match FindFrom(s, pat, 0)
    case None => s
    case Some(k) =>
      var r := s[..k];
      assert forall j :: 0 <= j ==> OccursAt(r, pat, j) ==> OccursAt(s, pat, j);
      r
  }

  /** Python's `s.split(c)[-1]`: the text after the last `c`, or all of `s` when there is none. */
  function AfterLast(s: string, c: char): (r: string)
    ensures c !in r
    decreases |s|
  {
    if |s| == 0 then ""
    else if s[|s| - 1] == c then ""
    else AfterLast(s[..|s| - 1], c) + [s[|s| - 1]]
  }

  /** The tail is a suffix of `s`, and unless it is all of `s` a `c` stands just before it. */
  lemma {:induction false} AfterLastIsTail(s: string, c: char)
    ensures var r := AfterLast(s, c);
      && |r| <= |s| && r == s[|s| - |r|..]
      && (|r| < |s| ==> s[|s| - |r| - 1] == c)
    decreases |s|
  {
    if |s| > 0 && s[|s| - 1] != c {
      var s' := s[..|s| - 1];
      AfterLastIsTail(s', c);
      var r' := AfterLast(s', c);
      assert s'[|s'| - |r'|..] + [s[|s| - 1]] == s[|s| - |r'| - 1..];
    }
  }

  /** Whatever precedes it, a string ending in `c` followed by a `c`-free tail yields that tail. */
  lemma {:induction false} AfterLastOfTail(p: string, c: char, x: string)
    requires c !in x
    ensures AfterLast(p + [c] + x, c) == x
    decreases |x|
  {
    var s := p + [c] + x;
    if |x| == 0 {
      assert s[|s| - 1] == c;
    } else {
      var x' := x[..|x| - 1];
      assert s[..|s| - 1] == p + [c] + x';
      assert c !in x' by {
        assert forall i :: 0 <= i < |x'| ==> x'[i] == x[i];
      }
      AfterLastOfTail(p, c, x');
      assert x' + [x[|x| - 1]] == x;
    }
  }

  /** A string without `c` is its own tail. */
  lemma AfterLastNoSeparator(s: string, c: char)
    requires c !in s
    ensures AfterLast(s, c) == s
  {
    AfterLastIsTail(s, c);
  }

  /** ASCII lower-casing of one character. */
  function LowerChar(c: char): char {
    if 'A' <= c <= 'Z' then (c as int - 'A' as int + 'a' as int) as char else c
  }

  /** Python's `s.lower()`, restricted to ASCII letters. */
  function Lower(s: string): (r: string)
    ensures |r| == |s|
    ensures forall i :: 0 <= i < |s| ==> r[i] == LowerChar(s[i])
  {
    seq(|s|, i requires 0 <= i < |s| => LowerChar(s[i]))
  }

  /** `"".join(parts)`. */
  function Concat(parts: seq<string>): string
    decreases |parts|
  {
    if |parts| == 0 then "" else Concat(parts[..|parts| - 1]) + parts[|parts| - 1]
  }

  lemma ConcatAppend(parts: seq<string>, p: string)
    ensures Concat(parts + [p]) == Concat(parts) + p
  {
    assert (parts + [p])[..|parts|] == parts;
  }

  lemma {:induction false} ConcatJoin(a: seq<string>, b: seq<string>)
    ensures Concat(a + b) == Concat(a) + Concat(b)
    decreases |b|
  {
    if |b| == 0 {
      assert a + b == a;
    } else {
      var b' := b[..|b| - 1];
      assert a + b == (a + b') + [b[|b| - 1]];
      ConcatAppend(a + b', b[|b| - 1]);
      ConcatJoin(a, b');
      ConcatAppend(b', b[|b| - 1]);
      assert b' + [b[|b| - 1]] == b;
    }
  }
}

=== FILE: wrappers.dfy ===
/** Failure-compatible wrappers shared by every module of the model. */
module Wrappers {

  /** Python's `Optional[T]`: `None` or a present value. */
  datatype Option<+T> = None | Some(value: T) {

    /** The value, or `default` when absent (Python's `x or default` on optionals). */
    function GetOr(default: T): T {
      match this
      case Some(v) => v
      case None => default
    }
  }
}
